=== FILE: README.md ===
# Yeelight LED lamp — a Dafny model

This project models `LED`, the class through which the smart-home host drives
a Yeelight lamp over its LAN control protocol. It covers:

- **The cached property record** (`updateState`). The lamp's notification
  parameters are stored property by property.
- **Change events.** The seven tracked properties (power, brightness, colour
  mode, colour temperature, RGB, hue, saturation) go through change-detecting
  setters, which queue an event only when a value actually changes.
  `getEvents` hands the queue over and clears it.
- **The outgoing side.**
  - Every `send*` operation becomes a JSON command carrying the next number
    from a per-lamp counter. It is written as one CRLF-terminated line to a
    lazily opened, cached TCP socket.
  - `getEffect` maps a transition duration to `sudden`/`smooth` or rejects it.
  - `changingState` builds one step of a colour-flow expression.
- **The capability operations** (`setPower`, `setCT`, `setHSV`, `setRGB`,
  `setBrightness`). These route to the main light (line 0) or to the
  background light.

Modules, in dependency order:

| module | file | what it holds |
|---|---|---|
| `Wrappers` | wrappers.dfy | `Option` and `Result`. Exceptions become `Failure` values and `null` becomes `None`. |
| `Errors` | errors.dfy | The exceptions the class throws: invalid duration, invalid flow mode, unreachable host, other connection errors. |
| `Text` | text.dfy | PHP's `explode`/`implode` on one character, decimal rendering of ints, and the scanning pieces of a numeric string (whitespace, sign, digit run). |
| `Numeric` | numeric.dfy | How PHP reads a number out of a string: the numeric prefix with its fraction and exponent, the `(int)` cast, and a string passed to an `int` parameter such as `dechex`'s. |
| `Hex` | hex.dfy | PHP's `dechex`, which shows negative ints as their 64-bit two's-complement pattern, and `hexdec`, which is case-blind and skips non-hex characters. |
| `Wire` | wire.dfy | `json_encode` of a command, with PHP's default string escaping, and the CRLF frame. |
| `Connection` | connection.dfy | `getSocket` and `disconnect` over an abstract socket. |
| `DeviceState` | state.dfy | `updateState`, the change-detecting setters, `getEvents`. |
| `Commands` | commands.dfy | `getEffect`, `changingState`, and every `send*` operation as a `Request` value mapped to its method name and parameter list. |
| `Led` | led.dfy | The whole lamp. It covers `sendCommand` and the command counter, the packets written, the capability routing, and the lamp-level views of update, drain and disconnect. |

How the source's mechanisms are represented:

- **Side effects.** The object's mutable fields become one immutable `Led`
  value. Every operation returns the lamp it leaves behind.
- **Socket connection.** Opening a socket is not modelled. Each sending
  operation takes an `OpenResult` parameter: what the transport would answer
  if a connection were attempted at that moment. The answer is ignored when
  a socket is already cached.
- **Clock.** The clock reading `time()` is the parameter `now`.
- **Main/background pairs.** Each `sendX`/`sendBgX` pair is one `Request`
  constructor with a `Channel` field.

Behaviour of the source worth noting:

- `getEffect` treats negative durations as `smooth`.
- `setHSV` on a non-zero line does not use `bg_set_hsv`. It sends the value
  component as the main light's brightness (`set_bright`). `Led.SetHSV` and
  `Led.HsvOffLineIgnoresColour` state this behaviour.
- `setRGB` passes the colour through `dechex` and then `hexdec`. A
  non-negative colour arrives unchanged. A negative one arrives as its
  unsigned 64-bit reading.

## Model

| member | source | states |
|---|---|---|
| `Text.Split` | classes/Devices/LED.php:79 | `explode` on a one-character separator yields at least one piece, no piece contains the separator, and the pieces joined with it give back the input |
| `Text.SplitJoin` | classes/Devices/LED.php:79 | splitting a join of separator-free pieces gives those pieces back, so the `support` word list loses nothing |
| `Numeric.NumeralStart` | classes/Devices/LED.php:321 | a string has a numeric prefix exactly when it splits into a run of whitespace (space, tab, newline, carriage return, vertical tab, form feed) and a rest that opens with at most one `+` or `-` and then a digit, or a '.' and a digit |
| `Numeric.Truncated` | classes/Devices/LED.php:321 | dropping the fraction of a value that lies in [-2^63, 2^63) gives a PHP int, and a whole numeral keeps its signed value |
| `Numeric.TruncatesTowardZero` | classes/Devices/LED.php:321 | dropping the fraction gives the whole part with the numeral's sign: the `w` with `w`·10^k <= mantissa < (`w`+1)·10^k for k digits after the point, so `-7.9` gives -7 and not -8 |
| `Numeric.ReadsWholePart` | classes/Devices/LED.php:321 | for a numeral whose whole part is `w`: below 2^63 the cast and an `int` parameter both give `w` with its sign; beyond the int range the parameter refuses and the cast gives the int bound on the value's side; from 2^1024 - 2^970 on (an infinite double) the cast gives 0 |
| `Numeric.IntCast` | classes/Devices/LED.php:321 | `(int)` of a string always gives a PHP int, and 0 when there is no numeric prefix |
| `Numeric.IntArgument` | classes/Devices/LED.php:94 | a string is accepted by an `int` parameter exactly when its numeric prefix has a value in [-2^63, 2^63), and the int it yields is in range |
| `Numeric.CastAgreesWithArgument` | classes/Devices/LED.php:94 | wherever an `int` parameter accepts a string, `(int)` of that string is the same int |
| `Numeric.ParseDecimal` | classes/Devices/LED.php:322 | the decimal rendering of any integer reads back as a whole numeral of exactly that integer |
| `Numeric.ParseExponentForm` | classes/Devices/LED.php:321 | digits, an `e` and more digits read as the first digits scaled by ten to the power of the second |
| `Numeric.ParseNegativeFraction` | classes/Devices/LED.php:321 | a minus sign, digits, a '.' and digits read as the negative numeral of all the digits with as many places after the point as the fraction has |
| `Numeric.ParseWholeOnly` | classes/Devices/LED.php:321 | digits followed by anything but a digit, '.', `e` or `E` read as exactly those digits, whatever follows |
| `Numeric.IntReadsDecimal` | classes/Devices/LED.php:321 | the cast and the `int` parameter read the rendering of a PHP int as that int; a larger one is refused by the parameter; the cast clamps it to the int bound on its side while its magnitude is below 2^1024 - 2^970, and gives 0 from there on, where the double is infinite |
| `Numeric.ExponentForm` | classes/Devices/LED.php:321 | `"4e3"` reads as 4000 both by the cast and by an `int` parameter |
| `Numeric.FractionForm` | classes/Devices/LED.php:321 | `"-7.9"` is cast to -7: the fraction is dropped toward zero |
| `Numeric.TrailingText` | classes/Devices/LED.php:321 | `"12px"` reads as 12: text after the numeric prefix is ignored |
| `Numeric.NotNumeric` | classes/Devices/LED.php:321 | `"px"` and `".e1"` have no numeric prefix: the cast gives 0 and an `int` parameter refuses them |
| `Hex.DecHex` | classes/Devices/LED.php:94 | `dechex` produces at least one digit, no leading zero, and only lower-case hex digits; `hexdec` reads back a non-negative int unchanged and a negative one as itself plus 2^64 |
| `Hex.HexRoundTrip` | classes/Devices/LED.php:592-594 | `hexdec(dechex(n)) == n` for every non-negative n, so `setRGB` forwards non-negative colours unchanged |
| `Hex.RedExample` | classes/Devices/LED.php:93-95 | the decimal rgb 16711680 is stored as `ff0000`, and `hexdec("ff0000")` is 16711680 again |
| `Hex.LenientExample` | classes/Devices/LED.php:225 | `hexdec` skips a leading `#` and accepts upper-case digits: `#FF` reads as 255 |
| `Wire.EscapeRoundTrip` | classes/Devices/LED.php:392-397 | the string escaping of `json_encode` loses nothing: unescaping the escaped form of any string, including characters outside the BMP, gives the string back |
| `Wire.EscapePlain` | classes/Devices/LED.php:392-397 | printable ASCII other than `"`, `\` and `/` is written unchanged |
| `Wire.EncodeCmdPrintable` | classes/Devices/LED.php:392-397 | the encoded command object is ASCII from space to DEL, so it holds no CR, LF or other C0 control character, for every method name and parameter list |
| `Wire.Frame` | classes/Devices/LED.php:397 | a frame is the command object followed by CRLF, with no CR or LF before the terminator, so each command is exactly one line on the socket |
| `Wire.SetBrightFrame` | classes/Devices/LED.php:243-246 | the bytes of `set_bright` 50, smooth, 500 for any id, spelled out |
| `Connection.GetSocket` | classes/Devices/LED.php:174-192 | a cached socket is reused without any attempt; otherwise, when the attempt opens, its own handle is cached and returned; a failure leaves no socket and maps errno 113 to `Unreachable` and any other errno to a connection error carrying that errno and message |
| `Connection.Disconnect` | classes/Devices/LED.php:408-414 | afterwards no socket is held, whether or not one was |
| `Connection.SocketReused` | classes/Devices/LED.php:176-178 | once a socket is obtained, later requests get the very same socket and handle whatever the transport would answer |
| `Connection.ReopenAfterDisconnect` | classes/Devices/LED.php:408-414 | after `disconnect`, a socket is obtained exactly when a new one can be opened, and it is that new one |
| `DeviceState.PropertyOf` | classes/Devices/LED.php:65-106 | a recognised key is the wire key of the property it selects (case-sensitive: `Location` but `id`, `fw_ver`, …) |
| `DeviceState.DispatchRoundTrip` | classes/Devices/LED.php:65-104 | every property is selected by its own key, so no two properties share a key |
| `DeviceState.Initial` | classes/Devices/LED.php:26-32 | a new lamp knows no property, has no pending event and was last updated at time 0 |
| `DeviceState.Ingest` | classes/Devices/LED.php:78-101 | `support` is stored as the `explode` of its value on spaces; `rgb` is stored as `dechex` of the int its value passes as, and throws exactly when `dechex` refuses the value; every other key is stored as given; tracked properties are always single strings |
| `DeviceState.Store` | classes/Devices/LED.php:111-172 | a tracked property's setter stores the value and queues it as that property's event exactly when it differs from the stored value, and otherwise changes nothing; untracked properties are stored without an event; no other property or event is touched |
| `DeviceState.StoreIdempotent` | classes/Devices/LED.php:113-115 | storing the value just stored changes nothing |
| `DeviceState.StoreLatest` | classes/Devices/LED.php:116-117 | two changes in a row leave only the second value pending |
| `DeviceState.Step` | classes/Devices/LED.php:65-106 | handling one entry succeeds unless it is an `rgb` value that `dechex` refuses (no numeric prefix, or a value outside the int range); unknown keys are accepted and ignored |
| `DeviceState.Process` | classes/Devices/LED.php:64-107 | the loop over the update map runs to the end exactly when every entry is accepted |
| `DeviceState.UpdateState` | classes/Devices/LED.php:62-109 | `updated` is stamped with the clock reading exactly when every entry was handled, and otherwise keeps the old time |
| `DeviceState.ThrowKeepsPrefix` | classes/Devices/LED.php:64-109 | when the first refused entry is at position k, the update throws and leaves exactly the state that the first k entries produce, with the old time |
| `DeviceState.GetEvents` | classes/Devices/LED.php:617-625 | with nothing pending the result is null and nothing changes; otherwise the whole pending map is returned and cleared, and nothing else changes |
| `DeviceState.DrainTwice` | classes/Devices/LED.php:617-625 | a second `getEvents` right after a first returns null and changes nothing |
| `DeviceState.ProcessProps` | classes/Devices/LED.php:64-107 | after an update each property holds the stored form of the LAST entry naming it, or its old value when none does |
| `DeviceState.ProcessEvents` | classes/Devices/LED.php:64-172 | a tracked property gains a pending event, holding its last value, exactly when some entry for it differs from the value stored before; other pending events stay as they were |
| `DeviceState.ProcessIdempotent` | classes/Devices/LED.php:64-172 | handling the same update map a second time changes neither properties nor events: an accepted map completes again, and a map that throws throws again at the same entry before anything is stored |
| `DeviceState.UpdateIdempotent` | classes/Devices/LED.php:62-172 | a repeated `updateState` with the same map queues no further event: when every entry is accepted it only moves the update time, and when an entry throws it throws again and leaves the record, the update time included, as the first call left it |
| `DeviceState.UnknownKeysIgnored` | classes/Devices/LED.php:105-106 | dropping the entries with unknown keys leaves the outcome of an update unchanged |
| `DeviceState.IdentityKeysSilent` | classes/Devices/LED.php:66-80 | a map naming no tracked property (identity keys, `support`, `name`, unknown keys) queues no event |
| `DeviceState.StoreConsistent` | classes/Devices/LED.php:111-172 | each setter keeps every pending event equal to the current value of a tracked property |
| `DeviceState.ProcessConsistent` | classes/Devices/LED.php:62-172 | an update keeps the events consistent with the properties, even when an entry throws part way |
| `DeviceState.ConsistentAlways` | classes/Devices/LED.php:26-32 | consistency holds for a new lamp and survives `updateState` and `getEvents` |
| `DeviceState.SupportWords` | classes/Devices/LED.php:78-80 | an update with only `support` succeeds, stores the space-separated words and queues no event |
| `DeviceState.RgbStoredAsHex` | classes/Devices/LED.php:93-95 | a decimal `rgb` reading of any PHP int is stored as its `dechex` spelling, which `hexdec` reads back as that int (plus 2^64, the 64-bit two's-complement reading, when it is negative), and is queued as an event exactly when it differs from the stored colour |
| `DeviceState.RgbBeyondIntThrows` | classes/Devices/LED.php:93-95 | a decimal `rgb` reading outside the int range makes the update throw with nothing stored and the old time |
| `Commands.GetEffect` | classes/Devices/LED.php:194-200 | durations 1 to 29 throw an invalid-duration error; 0 is `sudden`; every other duration, negative ones included, is `smooth` |
| `Commands.EffectBoundaries` | classes/Devices/LED.php:196-199 | the boundary values 0, 1, 15, 29, 30 and -1 |
| `Commands.ChangingState` | classes/Devices/LED.php:316-323 | a mode other than 1, 2 or 7 throws; otherwise the result splits on commas into exactly the decimal duration, mode, value and brightness, the value being `hexdec` of the text for mode 1 and its `(int)` cast otherwise (exponent applied, fraction dropped, clamped to the int range) |
| `Commands.ChangingStateReadBack` | classes/Devices/LED.php:321-322 | each comma-separated field of a flow step is a whole decimal numeral of, in turn, the duration, mode, decoded value and brightness |
| `Commands.ChangingStateColour` | classes/Devices/LED.php:321-322 | the colour step for `ff0000` carries 16711680 |
| `Commands.ChangingStateTemperature` | classes/Devices/LED.php:321-322 | the temperature step for `4000` carries 4000 |
| `Commands.ChangingStateExponent` | classes/Devices/LED.php:321-322 | the temperature step for `4e3` carries 4000 |
| `Commands.ChangingStateBadMode` | classes/Devices/LED.php:318-320 | modes 5 and 0 are rejected |
| `Commands.Build` | classes/Devices/LED.php:202-387 | an operation's parameters fail to build exactly when it is timed and its duration is 1 to 29; the method is the operation's name, `bg_`-prefixed for the background light |
| `Commands.BackgroundRouting` | classes/Devices/LED.php:207-343 | every background operation uses the main-light method with `bg_` in front and the same parameters, and fails exactly when the main-light form does |
| `Commands.TimedParams` | classes/Devices/LED.php:207-251 | timed operations send their leading values (temperature, `hexdec` of the colour text, hue and saturation, brightness), then the effect, then the duration |
| `Commands.PowerParams` | classes/Devices/LED.php:253-275 | power commands send `on` or `off`, the effect and the duration, and a fourth mode parameter exactly when the mode is non-zero |
| `Commands.MusicParams` | classes/Devices/LED.php:370-377 | music mode sends `[0]` exactly when no host is given, and otherwise `[1, host, port]` |
| `Led.New` | classes/Devices/LED.php:26-32 | a new lamp has no socket, has sent nothing, and numbers its first command 1 |
| `Led.SendCommand` | classes/Devices/LED.php:389-400 | the counter advances whatever happens, because the number is taken before the socket is obtained; the command is written exactly when a socket is cached or can be opened, as one packet with the old number on the cached socket, or else on the socket just opened with the attempt's handle; otherwise nothing is written and the error tells an unreachable host from other failures; the property record is untouched |
| `Led.Send` | classes/Devices/LED.php:207-210 | a rejected duration throws before `sendCommand`, leaving the lamp and the counter unchanged; otherwise the built method and parameters are dispatched as by `sendCommand` |
| `Led.PacketIsOneLine` | classes/Devices/LED.php:392-398 | the bytes written for a sent command are its JSON object with the number it got, followed by CRLF, with no line break inside |
| `Led.FailedSendSkipsId` | classes/Devices/LED.php:391-398 | a command whose socket could not be opened still uses up its number: the next command, once the lamp is reachable, carries the number after it |
| `Led.NewIdsOrdered` | classes/Devices/LED.php:26 | a new lamp satisfies the numbering invariant |
| `Led.SendKeepsIdsOrdered` | classes/Devices/LED.php:389-400 | the packets written carry strictly increasing numbers, all below the next one, before and after any send |
| `Led.SendStep` | classes/Devices/LED.php:389-400 | one send keeps the numbering invariant and the property record, only appends packets, and uses a number exactly when the duration passed `getEffect` |
| `Led.SendAll` | classes/Devices/LED.php:389-400 | sending a batch hands out consecutive numbers: request i, if it builds, gets the start number plus the count of earlier requests that built, whether or not those reached the lamp; rejected requests report an invalid duration and use no number |
| `Led.UpdateState` | classes/Devices/LED.php:62-109 | on the whole lamp, the property record, pending events and update time become exactly those the state model's `updateState` leaves, so what `DeviceState.ProcessProps`, `ProcessEvents` and `ThrowKeepsPrefix` state holds for the lamp; the update succeeds exactly when every entry is accepted and touches neither the counter, the socket nor the packets |
| `Led.GetEvents` | classes/Devices/LED.php:617-625 | on the whole lamp, draining returns the pending events (null when none), clears them and keeps the rest of the record (the properties and the update time), the counter, the socket and the packets |
| `Led.Disconnect` | classes/Devices/LED.php:408-414 | afterwards no socket is held, and the properties, the counter and the packets are as before |
| `Led.SendAfterDisconnect` | classes/Devices/LED.php:408-414 | after `disconnect`, the next command goes out exactly when a new socket opens, on that socket, with the next number |
| `Led.SendCommutesWithUpdate` | classes/Devices/LED.php:389-400 | sending a command and ingesting an update commute, so commands never change the cached properties themselves |
| `Led.Line` | classes/Devices/LED.php:531 | line 0 is the main light and every other line the background light |
| `Led.SetPower` | classes/Devices/LED.php:529-536 | sends `set_power`/`bg_set_power` with `on` or `off`, `smooth`, 300 and no mode, under the guarantees of `sendCommand` |
| `Led.SetPowerOff` | classes/Devices/LED.php:538-545 | sends `off`, `smooth`, 300 to the chosen light |
| `Led.SetPowerOn` | classes/Devices/LED.php:547-554 | sends `on`, `smooth`, 300 to the chosen light |
| `Led.PowerShortcuts` | classes/Devices/LED.php:538-554 | `setPowerOff` and `setPowerOn` behave as `setPower` with false and true |
| `Led.SetCT` | classes/Devices/LED.php:561-568 | sends `set_ct_abx`/`bg_set_ct_abx` with the temperature, `sudden`, 0 |
| `Led.SetHSV` | classes/Devices/LED.php:575-582 | on line 0 it sends `set_hsv` with hue, saturation, `sudden`, 0; on any other line it sends `set_bright` to the main light with the value component |
| `Led.HsvOffLineIgnoresColour` | classes/Devices/LED.php:579-581 | off line 0, `setHSV` ignores hue and saturation and acts exactly as `setBrightness(value)` on line 0 |
| `Led.SetRGB` | classes/Devices/LED.php:589-596 | sends `set_rgb`/`bg_set_rgb` whose colour parameter is the colour itself when non-negative and the colour plus 2^64 when negative, then `sudden`, 0 |
| `Led.SetBrightness` | classes/Devices/LED.php:603-610 | sends `set_bright`/`bg_set_bright` with the brightness, `sudden`, 0 |
| `Led.CapabilitiesNeverRejectDuration` | classes/Devices/LED.php:529-610 | no capability operation ever fails the duration check: their durations are 0 or 300, so every failure comes from the socket |

## Left out

- Socket I/O is not modelled: `stream_socket_client`, the 3-second timeout, `stream_socket_sendto` and `fclose`. The transport's answer to a connection attempt is a parameter. Written packets are recorded in the lamp's `outbox` rather than sent. A failed or partial write is not modelled, since the source ignores the return value.
- `parse_url` of the location is not modelled. `getSocket` is modelled from the transport's answer onward.
- `getResponse` (line 403) reads from the socket and is left out with the rest of the I/O.
- `refreshState` (lines 514-527) is left out. It performs discovery through the `Socket` class, which is not part of this model. `updateState`, which it feeds, is modelled.
- `getState` and `__toString` (lines 452-467) are left out. `getState` first calls `refreshState` (line 454), and `__toString` calls `getState`, so both run the discovery that is left out on the line above and, when the lamp answers, feed its reply to `updateState`, which is modelled. What remains is reading the cached `power`, `bright` and `ct` fields. `getDescription` (lines 431-450) is left out as presentation only: it maps the model name to a display label.
- The typed getters (lines 469-512) and the capability getters `getPower`, `getCT`, `getHSV`, `getRGB` and `getBrightness` (lines 556-615) are left out. They only read cached fields. `getSupportValue` and `getNameValue` return the field unchanged, `getPowerValue` compares it with `'on'` by `==`, and the others apply `intval`. `getRGBValue` applies `intval` to the stored `dechex` spelling, so `getRGB` does not read the colour back: `intval("ff0000")` is 0, and a spelling that starts with digits, such as `"12ab"`, reads as those digits only.
- The host-interface plumbing is left out: `init`, `__construct`, `__sleep`, `__destruct`, `getInitDataList`, `getInitDataValues`, `getLastUpdate`, `getModuleName`, `getHwid` and `getEventsList`. The constructor's effects (update time 0, counter 1, no events) are in `DeviceState.Initial` and `Led.New`.
- DeviceState.Store: compares values with exact string equality, not PHP's loose `==`. For example, `"1"` and `"01"` count as different here, so a write that PHP would treat as "no change" may queue an event in the model.
- Update-map values are strings, as a discovery packet delivers them. Non-string values such as ints, floats or arrays are not modelled.
- The warnings and notices PHP raises while reading numeric strings are not modelled. These are the warning for trailing text after a number passed to an `int` parameter, and the deprecation notice for a fractional one. Neither changes the result.
- PHP 8.0 or later is assumed. DeviceState.Ingest, Step, Process, UpdateState, ThrowKeepsPrefix, RgbBeyondIntThrows and Numeric.IntArgument rely on PHP 8, where `dechex` (line 94) throws a `TypeError` for a string with no numeric prefix or one beyond the int range. The file declares no `strict_types`. Under PHP 7.x, `dechex` instead warns and returns `null`. `setRGBValue(null)` then stores `null` and queues it as an event, unless the colour is still unset, and the loop carries on to stamp `updated` at line 108.
- Numeric.IntCast: a numeral with a fraction or an exponent is valued exactly. PHP first converts it to a double, so a value needing more than 53 significant bits may come out differently in PHP (`"9007199254740993.0"` is 9007199254740992 there). The same holds for Numeric.IntArgument and for the out-of-range test near ±2^63.
- Commands.ChangingState: the value field inherits the limit of Numeric.IntCast above. For mode 1 it also inherits that of Hex.DecHex below: `hexdec` of a value at or above 2^63 is a float, which PHP writes in float notation, while the model writes the exact integer.
- Hex.DecHex: `hexdec` of a result at or above 2^63 returns a float in PHP. The model keeps the exact integer. This is why `Led.SetRGB` says nothing beyond the 64-bit reading for negative colours.
- Led.SetRGB: the colour parameter of a negative colour is stated as the exact integer colour + 2^64. PHP would send a float there.
- The command counter `message_id` is an unbounded integer. PHP's overflow to float after 2^63 - 1 commands is not modelled.
- The capability operations (`setPower`, `setCT`, …) return nothing in PHP. The model also returns the command number they obtained, which the caller may ignore.
- `json_encode` is modelled for ints, strings and flat lists: the shapes every command in this class produces. Parameters handed through `sendGetProp` and `sendSetScene` are limited to such values. Nested arrays, floats, booleans, `null` and the failure of `json_encode` on malformed text are not modelled.
- Led.Line: `$line` is untyped in `setPower`, `setPowerOff` and `setPowerOn` (lines 529, 538, 547). There, `$line == 0` is PHP's loose equality, so `null`, `false` and `"0"` also select the main light. `Led.Line` takes an int and covers only int lines.
- PHP's type juggling of the other untyped parameters is not modelled: `$hue`, `$sat` and `$value` in `setHSV` (its `$line` is an int), and `$mode` in `sendSetPower` and `sendBgSetPower`. They are taken as ints.
- Every `throw new Exception(...)` (lines 184, 186, 197, 319) names `Exception` unqualified inside namespace `FSA\YeelightPlugin\Devices`, and the file has no `use Exception`. The name therefore resolves to `FSA\YeelightPlugin\Devices\Exception`, a class that is not part of this model. The model assumes it exists and carries the message and code. Were it missing, each throw would instead raise PHP's "class not found" `Error`, losing the errno, the message and the cause.
- DeviceState.GetEvents: PHP's events array keeps the order in which properties first changed. The model returns a map keyed by property, which has no order.
- Led.GetEvents: returns the same unordered map as DeviceState.GetEvents, so the order in which events were first queued is lost on the lamp too.

=== FILE: commands.dfy ===
/**
 * What each `send*` operation puts on the wire: the method name and the
 * parameter list, plus the two helpers that shape parameters, `getEffect`
 * (the transition style of a duration) and `changingState` (one step of a
 * colour-flow expression).
 */
module Commands {
  import opened Wrappers
  import opened Errors
  import opened Wire
  import Text
  import Hex
  import Numeric

  // ---------------------------------------------------------------------------
  // getEffect
  // ---------------------------------------------------------------------------

  /**
   * `getEffect`: durations from 1 to 29 are rejected; 0 is an instant
   * ("sudden") change and every other duration, negative ones included, a
   * gradual ("smooth") one.
   */
  function GetEffect(duration: int): (r: Result<string, Error>)
    ensures r.Failure? <==> 0 < duration < 30
    ensures r.Failure? ==> r.error == InvalidDuration
    ensures r == Success("sudden") <==> duration == 0
    ensures r == Success("smooth") <==> duration < 0 || duration >= 30
  {
    if duration > 0 && duration < 30 then Failure(InvalidDuration)
    else if duration == 0 then Success("sudden")
    else Success("smooth")
  }

  /** The boundary cases of `getEffect`. */
  lemma EffectBoundaries()
    ensures GetEffect(0) == Success("sudden")
    ensures GetEffect(1) == Failure(InvalidDuration)
    ensures GetEffect(15) == Failure(InvalidDuration)
    ensures GetEffect(29) == Failure(InvalidDuration)
    ensures GetEffect(30) == Success("smooth")
    ensures GetEffect(-1) == Success("smooth")
  {
  }

  // ---------------------------------------------------------------------------
  // changingState
  // ---------------------------------------------------------------------------

  /** The colour-flow modes: 1 colour, 2 colour temperature, 7 sleep. */
  predicate ValidFlowMode(mode: int) {
    mode == 1 || mode == 2 || mode == 7
  }

  /** The value field of a flow step: hex-decoded for colour mode, `(int)` cast otherwise. */
  function FlowValue(mode: int, value: string): int {
    if mode == 1 then Hex.HexDec(value) else Numeric.IntCast(value)
  }

  /**
   * `changingState`: one flow step `duration,mode,value,brightness`, each field
   * a decimal integer; an invalid mode throws.
   */
  function ChangingState(duration: int, mode: int, value: string, brightness: int): (r: Result<string, Error>)
    ensures r.Failure? <==> !ValidFlowMode(mode)
    ensures r.Failure? ==> r.error == InvalidMode
    ensures r.Success? ==> Text.Split(r.value, ',') == FlowFields(duration, mode, FlowValue(mode, value), brightness)
  {
    if !ValidFlowMode(mode) then Failure(InvalidMode)
    else
      var s := Text.DecimalString(duration) + "," + Text.DecimalString(mode) + ","
        + Text.DecimalString(FlowValue(mode, value)) + "," + Text.DecimalString(brightness);
      FlowFieldsSplit(duration, mode, FlowValue(mode, value), brightness);
      Success(s)
  }

  /** The four fields of a flow step, as decimal strings. */
  function FlowFields(duration: int, mode: int, value: int, brightness: int): seq<string> {
    [Text.DecimalString(duration), Text.DecimalString(mode), Text.DecimalString(value), Text.DecimalString(brightness)]
  }

  lemma DecimalHasNoComma(n: int)
    ensures ',' !in Text.DecimalString(n)
  {
    var d := Text.DecimalString(n);
    forall i | 0 <= i < |d|
      ensures d[i] != ','
    {
      if n < 0 && i > 0 {
        assert d[i] == Text.NatString(-n)[i - 1];
      }
    }
  }

  lemma FlowFieldsSplit(duration: int, mode: int, value: int, brightness: int)
    ensures Text.Split(Text.DecimalString(duration) + "," + Text.DecimalString(mode) + ","
        + Text.DecimalString(value) + "," + Text.DecimalString(brightness), ',')
      == FlowFields(duration, mode, value, brightness)
  {
    var fields := FlowFields(duration, mode, value, brightness);
    forall i | 0 <= i < 4
      ensures ',' !in fields[i]
    {
      DecimalHasNoComma([duration, mode, value, brightness][i]);
    }
    JoinFour(fields);
    Text.SplitJoin(fields, ',');
  }

  lemma JoinFour(fields: seq<string>)
    requires |fields| == 4
    ensures Text.Join(fields, ',') == fields[0] + "," + fields[1] + "," + fields[2] + "," + fields[3]
  {
    assert fields[1..][1..] == fields[2..];
    assert fields[2..][1..] == fields[3..];
    assert Text.Join(fields[3..], ',') == fields[3];
    var j2 := Text.Join(fields[2..], ',');
    assert j2 == fields[2] + "," + fields[3];
    assert Text.Join(fields, ',') == fields[0] + "," + (fields[1] + "," + j2);
  }

  /**
   * Reading a flow step back: split on commas, each field is a whole numeral
   * of the duration, the mode, the decoded value and the brightness.
   */
  lemma ChangingStateReadBack(duration: int, mode: int, value: string, brightness: int)
    requires ValidFlowMode(mode)
    ensures var fields := Text.Split(ChangingState(duration, mode, value, brightness).value, ',');
      && |fields| == 4
      && Numeric.ParseNumeral(fields[0]) == Some(Numeric.Exact(duration))
      && Numeric.ParseNumeral(fields[1]) == Some(Numeric.Exact(mode))
      && Numeric.ParseNumeral(fields[2]) == Some(Numeric.Exact(FlowValue(mode, value)))
      && Numeric.ParseNumeral(fields[3]) == Some(Numeric.Exact(brightness))
  {
    Numeric.ParseDecimal(duration);
    Numeric.ParseDecimal(mode);
    Numeric.ParseDecimal(FlowValue(mode, value));
    Numeric.ParseDecimal(brightness);
  }

  /** A colour step: one second of red at 80% brightness. */
  lemma ChangingStateColour()
    ensures ChangingState(1000, 1, "ff0000", 80).Success?
    ensures Text.Split(ChangingState(1000, 1, "ff0000", 80).value, ',')
      == [Text.DecimalString(1000), "1", Text.DecimalString(16711680), Text.DecimalString(80)]
  {
    Hex.RedExample();
  }

  lemma FourThousandDigits()
    ensures Text.DecimalString(4000) == "4000"
  {
    assert Text.NatString(4) == "4";
    assert Text.NatString(40) == Text.NatString(4) + "0";
    assert Text.NatString(400) == Text.NatString(40) + "0";
    assert Text.NatString(4000) == Text.NatString(400) + "0";
  }

  lemma FourThousand()
    ensures Numeric.IntCast("4000") == 4000
  {
    FourThousandDigits();
    Numeric.IntReadsDecimal(4000);
  }

  /** A colour-temperature step: the value is read as a decimal integer. */
  lemma ChangingStateTemperature()
    ensures ChangingState(500, 2, "4000", 50).Success?
    ensures Text.Split(ChangingState(500, 2, "4000", 50).value, ',')[2] == Text.DecimalString(4000)
  {
    FourThousand();
  }

  /** An exponent in a temperature value is read in full: `"4e3"` is 4000. */
  lemma ChangingStateExponent()
    ensures ChangingState(500, 2, "4e3", 50).Success?
    ensures Text.Split(ChangingState(500, 2, "4e3", 50).value, ',')[2] == Text.DecimalString(4000)
  {
    Numeric.ExponentForm();
  }

  /** Modes other than colour, temperature and sleep are rejected. */
  lemma ChangingStateBadMode()
    ensures ChangingState(500, 5, "4000", 50) == Failure(InvalidMode)
    ensures ChangingState(500, 0, "4000", 50) == Failure(InvalidMode)
  {
  }

  // ---------------------------------------------------------------------------
  // The send* operations
  // ---------------------------------------------------------------------------

  /** Which light a command addresses: the main one, or the background light (`bg_` methods). */
  datatype Channel = Primary | Background

  function Prefix(ch: Channel): string {
    if ch == Primary then "" else "bg_"
  }

  /**
   * One `send*` operation and its arguments. Operations that exist for both
   * lights carry a `Channel`; the others (cron, music mode, rename,
   * `dev_toggle`, `get_prop`) exist only once.
   */
  datatype Request =
    | GetProp(props: seq<Param>)
    | SetCtAbx(ch: Channel, ct: int, duration: int)
    | SetRgb(ch: Channel, rgb: string, duration: int)
    | SetHsv(ch: Channel, hue: int, sat: int, duration: int)
    | SetBright(ch: Channel, bright: int, duration: int)
    | SetPower(ch: Channel, on: bool, duration: int, mode: int)
    | Toggle(ch: Channel)
    | SetDefault(ch: Channel)
    | StartCf(ch: Channel, count: int, action: int, flow: string)
    | StopCf(ch: Channel)
    | SetScene(ch: Channel, scene: seq<Param>)
    | CronAdd(cronType: int, value: int)
    | CronGet(cronType: int)
    | CronDel(cronType: int)
    | SetAdjust(ch: Channel, adjustment: string, prop: string)
    | SetMusic(host: string, port: int)
    | SetName(name: string)
    | DevToggle

  /** The operations whose parameters include an effect built from a duration. */
  predicate Timed(req: Request) {
    req.SetCtAbx? || req.SetRgb? || req.SetHsv? || req.SetBright? || req.SetPower?
  }

  /** The method name of the primary-light form of an operation. */
  function BaseMethod(req: Request): string {
    match req
    case GetProp(_) => "get_prop"
    case SetCtAbx(_, _, _) => "set_ct_abx"
    case SetRgb(_, _, _) => "set_rgb"
    case SetHsv(_, _, _, _) => "set_hsv"
    case SetBright(_, _, _) => "set_bright"
    case SetPower(_, _, _, _) => "set_power"
    case Toggle(_) => "toggle"
    case SetDefault(_) => "set_default"
    case StartCf(_, _, _, _) => "start_cf"
    case StopCf(_) => "stop_cf"
    case SetScene(_, _) => "set_scene"
    case CronAdd(_, _) => "cron_add"
    case CronGet(_) => "cron_get"
    case CronDel(_) => "cron_del"
    case SetAdjust(_, _, _) => "set_adjust"
    case SetMusic(_, _) => "set_music"
    case SetName(_) => "set_name"
    case DevToggle => "dev_toggle"
  }

  /** Whether the operation exists for both lights. */
  predicate HasChannel(req: Request) {
    req.SetCtAbx? || req.SetRgb? || req.SetHsv? || req.SetBright? || req.SetPower? || req.Toggle?
    || req.SetDefault? || req.StartCf? || req.StopCf? || req.SetScene? || req.SetAdjust?
  }

  function MethodName(req: Request): string {
    (if HasChannel(req) then Prefix(req.ch) else "") + BaseMethod(req)
  }

  /**
   * The parameters of an operation, given the effect its duration selects
   * (unused by untimed operations).
   */
  function ParamsWith(req: Request, effect: string): seq<Param> {
    match req
    case GetProp(props) => props
    case SetCtAbx(_, ct, d) => [PInt(ct), PStr(effect), PInt(d)]
    case SetRgb(_, rgb, d) => [PInt(Hex.HexDec(rgb)), PStr(effect), PInt(d)]
    case SetHsv(_, hue, sat, d) => [PInt(hue), PInt(sat), PStr(effect), PInt(d)]
    case SetBright(_, b, d) => [PInt(b), PStr(effect), PInt(d)]
    case SetPower(_, on, d, mode) =>
      [PStr(if on then "on" else "off"), PStr(effect), PInt(d)] + (if mode != 0 then [PInt(mode)] else [])
    case Toggle(_) => []
    case SetDefault(_) => []
    case StartCf(_, count, action, flow) => [PInt(count), PInt(action), PStr(flow)]
    case StopCf(_) => []
    case SetScene(_, scene) => scene
    case CronAdd(t, v) => [PInt(t), PInt(v)]
    case CronGet(t) => [PInt(t)]
    case CronDel(t) => [PInt(t)]
    case SetAdjust(_, adjustment, prop) => [PStr(adjustment), PStr(prop)]
    case SetMusic(host, port) => if host == "" then [PInt(0)] else [PInt(1), PStr(host), PInt(port)]
    case SetName(name) => [PStr(name)]
    case DevToggle => []
  }

  /**
   * The method and parameters a `send*` operation hands to `sendCommand`. A
   * timed operation whose duration `getEffect` rejects throws while its
   * parameters are being built, before anything is sent.
   */
  function Build(req: Request): (r: Result<(string, seq<Param>), Error>)
    ensures r.Failure? <==> Timed(req) && 0 < req.duration < 30
    ensures r.Failure? ==> r.error == InvalidDuration
    ensures r.Success? ==> r.value.0 == MethodName(req)
  {
    if Timed(req) then
      match GetEffect(req.duration)
      case Failure(e) => Failure(e)
      case Success(effect) => Success((MethodName(req), ParamsWith(req, effect)))
    else Success((MethodName(req), ParamsWith(req, "")))
  }

  /** The same operation addressed to the other light. */
  function WithChannel(req: Request, ch: Channel): Request
    requires HasChannel(req)
  {
    req.(ch := ch)
  }

  /**
   * Every two-light operation has a background form: its method is the
   * primary method with `bg_` in front, with the same parameters, and it
   * fails exactly when the primary form fails.
   */
  lemma BackgroundRouting(req: Request)
    requires HasChannel(req)
    ensures var p := Build(WithChannel(req, Primary));
      var b := Build(WithChannel(req, Background));
      && (p.Success? <==> b.Success?)
      && (p.Success? ==> b.value.0 == "bg_" + p.value.0 && b.value.1 == p.value.1)
  {
  }

  /**
   * Timed operations end with the effect `getEffect` picks and the duration
   * itself (power commands then add a non-zero mode), after their leading
   * values: the temperature, the `hexdec` of the colour string, hue and
   * saturation, or the brightness.
   */
  lemma TimedParams(req: Request)
    requires Timed(req) && !(0 < req.duration < 30)
    ensures var ps := Build(req).value.1;
      var k := if req.SetHsv? then 2 else 1;
      && |ps| >= k + 2
      && ps[k] == PStr(GetEffect(req.duration).value)
      && ps[k + 1] == PInt(req.duration)
      && (req.SetCtAbx? ==> ps[0] == PInt(req.ct))
      && (req.SetRgb? ==> ps[0] == PInt(Hex.HexDec(req.rgb)))
      && (req.SetHsv? ==> ps[0] == PInt(req.hue) && ps[1] == PInt(req.sat))
      && (req.SetBright? ==> ps[0] == PInt(req.bright))
      && (!req.SetPower? ==> |ps| == k + 2)
  {
  }

  /**
   * Power commands: "on" or "off", the effect, the duration, and the mode
   * appended only when it is non-zero.
   */
  lemma PowerParams(ch: Channel, on: bool, duration: int, mode: int)
    requires !(0 < duration < 30)
    ensures var ps := Build(SetPower(ch, on, duration, mode)).value.1;
      && (ps[0] == PStr("on") <==> on)
      && (ps[0] == PStr("off") <==> !on)
      && (|ps| == 4 <==> mode != 0)
      && (|ps| == 3 <==> mode == 0)
      && (mode != 0 ==> ps[3] == PInt(mode))
  {
  }

  /** Music mode: `[0]` switches it off when no host is given, `[1, host, port]` points it at one. */
  lemma MusicParams(host: string, port: int)
    ensures var ps := Build(SetMusic(host, port)).value.1;
      && (ps == [PInt(0)] <==> host == "")
      && (host != "" ==> ps == [PInt(1), PStr(host), PInt(port)])
  {
  }
}

=== FILE: connection.dfy ===
/**
 * The lamp's command socket as an abstract state. It is opened lazily by the
 * first command and then reused until `disconnect`; nothing reconnects on
 * its own. Opening is not modelled: the caller supplies what the transport
 * would answer to a connection attempt made now.
 */
module Connection {
  import opened Wrappers
  import opened Errors

  /** The cached socket handle, or none. */
  datatype Socket = Disconnected | Connected(handle: nat)

  /** The transport's answer to an attempt to open a socket. */
  datatype OpenResult = Opened(handle: nat) | Refused(errno: int, reason: string)

  /** The errno that means "no route to host". */
  const EHostUnreachable: int := 113

  /**
   * `getSocket`: reuse the cached handle if there is one, without attempting
   * anything; otherwise attempt to open, caching the handle on success and
   * reporting errno 113 as `Unreachable` and any other errno as
   * `ConnectionError` on failure.
   */
  function GetSocket(socket: Socket, attempt: OpenResult): (r: (Socket, Result<nat, Error>))
    ensures r.1.Success? <==> socket.Connected? || attempt.Opened?
    ensures r.1.Success? ==> r.0 == Connected(r.1.value)
    ensures socket.Connected? ==> r.0 == socket
    ensures socket.Disconnected? && attempt.Opened? ==> r == (Connected(attempt.handle), Success(attempt.handle))
    ensures r.1.Failure? ==> r.0 == Disconnected
    ensures r.1.Failure? ==> (r.1.error == Unreachable <==> attempt.errno == EHostUnreachable)
    ensures r.1.Failure? && attempt.errno != EHostUnreachable ==> r.1.error == ConnectionError(attempt.errno, attempt.reason)
  {
    match socket
    case Connected(h) => (socket, Success(h))
    case Disconnected =>
      match attempt
      case Opened(h) => (Connected(h), Success(h))
      case Refused(errno, reason) =>
        if errno == EHostUnreachable then (Disconnected, Failure(Unreachable))
        else (Disconnected, Failure(ConnectionError(errno, reason)))
  }

  /** `disconnect`: close and forget the handle; nothing to do when there is none. */
  function Disconnect(socket: Socket): (r: Socket)
    ensures r.Disconnected?
  {
    Disconnected
  }

  /**
   * Once a socket is obtained, later commands get the very same handle
   * whatever the transport would now answer, until `disconnect`.
   */
  lemma SocketReused(socket: Socket, first: OpenResult, later: OpenResult)
    requires GetSocket(socket, first).1.Success?
    ensures GetSocket(GetSocket(socket, first).0, later) == GetSocket(socket, first)
  {
  }

  /** After `disconnect` the next command opens a fresh socket from the transport's answer. */
  lemma ReopenAfterDisconnect(socket: Socket, attempt: OpenResult)
    ensures GetSocket(Disconnect(socket), attempt).1.Success? <==> attempt.Opened?
    ensures attempt.Opened? ==> GetSocket(Disconnect(socket), attempt).1.value == attempt.handle
  {
  }
}

=== FILE: errors.dfy ===
/**
 * The exceptions the lamp's operations throw, one variant per cause. Each is
 * a `throw new Exception(...)` in the source, where the unqualified name
 * resolves inside the class's namespace `FSA\YeelightPlugin\Devices`. The
 * model assumes that a class of that name exists there and carries the
 * message and code it is given; that class is not part of this model.
 */
module Errors {

  datatype Error =
    /** An effect duration strictly between 0 and 30. */
    | InvalidDuration
    /** A colour-flow step whose mode is not 1, 2 or 7. */
    | InvalidMode
    /** The socket could not be opened because the host is unreachable (errno 113). */
    | Unreachable
    /** The socket could not be opened for any other reason. */
    | ConnectionError(errno: int, reason: string)
}

=== FILE: hex.dfy ===
/**
 * PHP's `dechex` and `hexdec`. `dechex` prints lower-case hex digits with no
 * leading zeros and reads a negative int as its unsigned 64-bit pattern;
 * `hexdec` reads hex digits of either case and silently skips every other
 * character.
 */
module Hex {
  import opened Wrappers
  import Numeric

  /** 2^64: the modulus of PHP's 64-bit integers. */
  const TwoTo64: nat := 0x1_0000_0000_0000_0000

  predicate IsLowerHexDigit(c: char) {
    '0' <= c <= '9' || 'a' <= c <= 'f'
  }

  function HexDigit(d: nat): (c: char)
    requires d < 16
    ensures IsLowerHexDigit(c)
  {
    "0123456789abcdef"[d]
  }

  /** The value of one hex digit of either case, None for any other character. */
  function HexValue(c: char): (r: Option<nat>)
    ensures r.Some? ==> r.value < 16
  {
    if '0' <= c <= '9' then Some((c as int) - ('0' as int))
    else if 'a' <= c <= 'f' then Some((c as int) - ('a' as int) + 10)
    else if 'A' <= c <= 'F' then Some((c as int) - ('A' as int) + 10)
    else None
  }

  lemma HexValueOfDigit(d: nat)
    requires d < 16
    ensures HexValue(HexDigit(d)) == Some(d)
  {
  }

  /** `hexdec(s)`: the hex digits of `s`, read most significant first, others skipped. */
  function HexDec(s: string): nat {
    if |s| == 0 then 0
    else
      match HexValue(s[|s| - 1])
      case None => HexDec(s[..|s| - 1])
      case Some(d) => HexDec(s[..|s| - 1]) * 16 + d
  }

  /** The shortest lower-case hex numeral of `n`. */
  function HexString(n: nat): (r: string)
    ensures |r| >= 1
    ensures forall i :: 0 <= i < |r| ==> IsLowerHexDigit(r[i])
    ensures r[0] == '0' ==> n == 0 && |r| == 1
    ensures HexDec(r) == n
  {
    if n < 16 then
      HexValueOfDigit(n);
      [HexDigit(n)]
    else
      var prefix := HexString(n / 16);
      var r := prefix + [HexDigit(n % 16)];
      assert r[..|r| - 1] == prefix;
      HexValueOfDigit(n % 16);
      r
  }

  /** `dechex(n)`: a negative `n` is printed as its two's-complement 64-bit pattern. */
  function DecHex(n: int): (r: string)
    ensures |r| >= 1 && (r[0] == '0' ==> |r| == 1)
    ensures forall i :: 0 <= i < |r| ==> IsLowerHexDigit(r[i])
    ensures n >= 0 ==> HexDec(r) == n
    ensures Numeric.PhpIntMin <= n < 0 ==> HexDec(r) == n + TwoTo64
  {
    if n >= 0 then HexString(n) else HexString(n % TwoTo64)
  }

  /** `hexdec(dechex(n)) == n` for every non-negative int: the pair is an identity there. */
  lemma HexRoundTrip(n: nat)
    ensures HexDec(DecHex(n)) == n
  {
  }

  /** `dechex` of the packed colour red, and `hexdec` reading it back. */
  lemma RedExample()
    ensures DecHex(16711680) == "ff0000"
    ensures HexDec("ff0000") == 16711680
  {
    assert HexString(15) == "f";
    assert HexString(255) == HexString(15) + "f";
    assert HexString(4080) == HexString(255) + "0";
    assert HexString(65280) == HexString(4080) + "0";
    assert HexString(1044480) == HexString(65280) + "0";
    assert HexString(16711680) == HexString(1044480) + "0";
  }

  /** `hexdec` ignores case and skips characters that are not hex digits. */
  lemma LenientExample()
    ensures HexDec("#FF") == 255
  {
    assert "#FF"[..2] == "#F";
    assert "#F"[..1] == "#";
    assert "#"[..0] == "";
  }
}

=== FILE: led.dfy ===
/**
 * A Yeelight lamp as one value: the property record and pending events kept
 * by `updateState`, the counter that numbers outgoing commands, the cached
 * command socket, and every command frame written to that socket so far.
 * Each operation takes the lamp and returns the lamp it leaves behind.
 */
module Led {
  import opened Wrappers
  import opened Errors
  import opened Wire
  import opened Commands
  import DeviceState
  import Connection
  import Hex
  import Numeric

  /** One frame written to the socket whose handle it names. */
  datatype Packet = Packet(handle: nat, cmd: Cmd)

  /** The bytes of a packet on the wire: the JSON object and "\r\n". */
  function Bytes(p: Packet): string {
    Frame(p.cmd)
  }

  datatype Led = Led(state: DeviceState.State, nextId: int, socket: Connection.Socket, outbox: seq<Packet>)

  /** A new lamp: nothing known, nothing sent, no socket, and the first command numbered 1. */
  function New(): (led: Led)
    ensures led.nextId == 1 && led.outbox == [] && led.socket.Disconnected?
    ensures led.state == DeviceState.Initial()
  {
    Led(DeviceState.Initial(), 1, Connection.Disconnected, [])
  }

  // ---------------------------------------------------------------------------
  // sendCommand
  // ---------------------------------------------------------------------------

  /**
   * What any command-sending operation promises about the lamp `r.0` it
   * leaves and the outcome `r.1`, for a command `name(params)`: the number
   * is used up whatever happens; the command goes out exactly when a socket
   * is at hand or can be opened, as one packet carrying the old number on
   * that socket (the cached one, or else the one just opened); otherwise
   * nothing is written, no socket is kept and the error tells an unreachable
   * host from other failures. The property record is never touched.
   */
  predicate Dispatched(led: Led, attempt: Connection.OpenResult, r: (Led, Result<int, Error>), name: string, params: seq<Param>) {
    && r.0.nextId == led.nextId + 1
    && r.0.state == led.state
    && (r.1.Success? <==> led.socket.Connected? || attempt.Opened?)
    && (r.1.Success? ==>
          && r.1.value == led.nextId
          && r.0.socket.Connected?
          && (led.socket.Connected? ==> r.0.socket == led.socket)
          && (led.socket.Disconnected? ==> attempt.Opened? && r.0.socket == Connection.Connected(attempt.handle))
          && r.0.outbox == led.outbox + [Packet(r.0.socket.handle, Cmd(led.nextId, name, params))])
    && (r.1.Failure? ==>
          && r.0.outbox == led.outbox
          && r.0.socket.Disconnected?
          && (r.1.error == Unreachable <==> attempt.errno == Connection.EHostUnreachable)
          && (r.1.error != Unreachable ==> r.1.error == ConnectionError(attempt.errno, attempt.reason)))
  }

  /**
   * `sendCommand`: take the next number (even if the socket then cannot be
   * opened), frame the command, get the socket and write the frame to it.
   */
  function SendCommand(led: Led, name: string, params: seq<Param>, attempt: Connection.OpenResult): (r: (Led, Result<int, Error>))
    ensures Dispatched(led, attempt, r, name, params)
  {
    var id := led.nextId;
    var numbered := led.(nextId := id + 1);
    var (socket, handle) := Connection.GetSocket(led.socket, attempt);
    match handle
    case Failure(e) => (numbered.(socket := socket), Failure(e))
    case Success(h) => (numbered.(socket := socket, outbox := led.outbox + [Packet(h, Cmd(id, name, params))]), Success(id))
  }

  /**
   * A `send*` operation: build the method and parameters, then send. A
   * rejected duration throws before `sendCommand` runs, so the lamp is left
   * exactly as it was and no number is used.
   */
  function Send(led: Led, req: Request, attempt: Connection.OpenResult): (r: (Led, Result<int, Error>))
    ensures Build(req).Failure? ==> r == (led, Failure(InvalidDuration))
    ensures Build(req).Success? ==> Dispatched(led, attempt, r, Build(req).value.0, Build(req).value.1)
  {
    match Build(req)
    case Failure(e) => (led, Failure(e))
    case Success((name, params)) => SendCommand(led, name, params, attempt)
  }

  /** The frame of every packet is one line: the command's JSON object and "\r\n". */
  lemma PacketIsOneLine(led: Led, req: Request, attempt: Connection.OpenResult)
    requires Send(led, req, attempt).1.Success?
    ensures var r := Send(led, req, attempt);
      var b := Bytes(r.0.outbox[|r.0.outbox| - 1]);
      && |b| >= 2 && b[|b| - 2..] == "\r\n"
      && b[..|b| - 2] == EncodeCmd(Cmd(led.nextId, Build(req).value.0, Build(req).value.1))
      && (forall i :: 0 <= i < |b| - 2 ==> b[i] != '\r' && b[i] != '\n')
  {
  }

  /**
   * A command whose socket could not be opened still used up its number:
   * the next command, sent once the lamp is reachable, carries the number
   * after it.
   */
  lemma FailedSendSkipsId(led: Led, first: Request, second: Request, refused: Connection.OpenResult, accepted: Connection.OpenResult)
    requires led.socket.Disconnected? && refused.Refused? && accepted.Opened?
    requires Build(first).Success? && Build(second).Success?
    ensures var l1 := Send(led, first, refused).0;
      var r2 := Send(l1, second, accepted);
      && Send(led, first, refused).1.Failure?
      && r2.1 == Success(led.nextId + 1)
      && r2.0.outbox == led.outbox + [Packet(accepted.handle, Cmd(led.nextId + 1, Build(second).value.0, Build(second).value.1))]
  {
  }

  // ---------------------------------------------------------------------------
  // Command numbers
  // ---------------------------------------------------------------------------

  /**
   * The packets written so far carry strictly increasing numbers, all below
   * the next one to be used, so a reply's number names one command.
   */
  predicate IdsOrdered(led: Led) {
    && (forall i, j :: 0 <= i < j < |led.outbox| ==> led.outbox[i].cmd.id < led.outbox[j].cmd.id)
    && (forall i :: 0 <= i < |led.outbox| ==> led.outbox[i].cmd.id < led.nextId)
  }

  lemma NewIdsOrdered()
    ensures IdsOrdered(New())
  {
  }

  /** Sending keeps the packets' numbers ordered, whatever the outcome. */
  lemma SendKeepsIdsOrdered(led: Led, req: Request, attempt: Connection.OpenResult)
    requires IdsOrdered(led)
    ensures IdsOrdered(Send(led, req, attempt).0)
  {
    var r := Send(led, req, attempt);
    if r.1.Success? && Build(req).Success? {
      var o := r.0.outbox;
      assert o[..|led.outbox|] == led.outbox;
      assert o[|led.outbox|].cmd.id == led.nextId;
      forall i, j | 0 <= i < j < |o|
        ensures o[i].cmd.id < o[j].cmd.id
      {
        if j < |led.outbox| {
          assert o[i] == led.outbox[i] && o[j] == led.outbox[j];
        } else {
          assert o[i] == led.outbox[i];
        }
      }
    }
  }

  /** How many of `reqs` get past `getEffect`, i.e. how many numbers they use. */
  function Consumed(reqs: seq<Request>): (n: nat)
    ensures n <= |reqs|
  {
    if |reqs| == 0 then 0
    else Consumed(reqs[..|reqs| - 1]) + (if Build(reqs[|reqs| - 1]).Success? then 1 else 0)
  }

  /** One step of a batch: what a single `Send` does to the counter, the packets and the record. */
  lemma SendStep(led: Led, req: Request, attempt: Connection.OpenResult)
    requires IdsOrdered(led)
    ensures var r := Send(led, req, attempt);
      && IdsOrdered(r.0)
      && r.0.state == led.state
      && led.outbox <= r.0.outbox
      && r.0.nextId == led.nextId + (if Build(req).Success? then 1 else 0)
      && (r.1 == Failure(InvalidDuration) <==> Build(req).Failure?)
      && (r.1.Success? ==> r.1.value == led.nextId)
  {
    SendKeepsIdsOrdered(led, req, attempt);
  }

  /**
   * Send `reqs` in order, the i-th with the transport answer `attempts[i]`
   * (used only if no socket is open at that point). The numbers handed out
   * are consecutive: request i, if it gets past `getEffect`, is numbered
   * after every earlier request that did, whether or not those reached the
   * lamp; rejected requests use no number.
   */
  method SendAll(led: Led, reqs: seq<Request>, attempts: seq<Connection.OpenResult>) returns (l: Led, results: seq<Result<int, Error>>)
    requires |attempts| == |reqs|
    requires IdsOrdered(led)
    ensures |results| == |reqs|
    ensures l.nextId == led.nextId + Consumed(reqs)
    ensures l.state == led.state
    ensures IdsOrdered(l)
    ensures led.outbox <= l.outbox
    ensures forall i :: 0 <= i < |reqs| ==>
      (results[i] == Failure(InvalidDuration) <==> Build(reqs[i]).Failure?)
    ensures forall i :: 0 <= i < |reqs| && results[i].Success? ==>
      results[i].value == led.nextId + Consumed(reqs[..i])
  {
    l := led;
    results := [];
    var i := 0;
    while i < |reqs|
      invariant 0 <= i <= |reqs|
      invariant |results| == i
      invariant l.nextId == led.nextId + Consumed(reqs[..i])
      invariant l.state == led.state
      invariant IdsOrdered(l)
      invariant led.outbox <= l.outbox
      invariant forall k :: 0 <= k < i ==>
        (results[k] == Failure(InvalidDuration) <==> Build(reqs[k]).Failure?)
      invariant forall k :: 0 <= k < i && results[k].Success? ==>
        results[k].value == led.nextId + Consumed(reqs[..k])
    {
      SendStep(l, reqs[i], attempts[i]);
      var r := Send(l, reqs[i], attempts[i]);
      assert reqs[..i + 1][..i] == reqs[..i];
      var extended := results + [r.1];
      forall k | 0 <= k < i + 1
        ensures extended[k] == Failure(InvalidDuration) <==> Build(reqs[k]).Failure?
        ensures extended[k].Success? ==> extended[k].value == led.nextId + Consumed(reqs[..k])
      {
        if k < i {
          assert extended[k] == results[k];
        }
      }
      l := r.0;
      results := extended;
      i := i + 1;
    }
    assert reqs[..|reqs|] == reqs;
  }

  // ---------------------------------------------------------------------------
  // State updates and events on the lamp
  // ---------------------------------------------------------------------------

  /**
   * `updateState` on the lamp: the property record changes as the state
   * model says (`r.1` is false when an `rgb` value threw), and nothing about
   * commands does.
   */
  function UpdateState(led: Led, params: seq<(string, string)>, now: int): (r: (Led, bool))
    ensures r.1 <==> DeviceState.WellFormed(params)
    ensures r.1 ==> r.0.state.updated == now
    ensures r.0.state == DeviceState.UpdateState(led.state, params, now).state
    ensures r.0.nextId == led.nextId && r.0.socket == led.socket && r.0.outbox == led.outbox
  {
    var o := DeviceState.UpdateState(led.state, params, now);
    (led.(state := o.state), o.Completed?)
  }

  /** `getEvents` on the lamp: hand over and clear the pending events. */
  function GetEvents(led: Led): (r: (Option<map<DeviceState.Property, string>>, Led))
    ensures r.0.None? <==> led.state.events == map[]
    ensures r.0.Some? ==> r.0.value == led.state.events
    ensures r.1.state == led.state.(events := map[])
    ensures r.1.nextId == led.nextId && r.1.socket == led.socket && r.1.outbox == led.outbox
  {
    var (events, s) := DeviceState.GetEvents(led.state);
    (events, led.(state := s))
  }

  /** `disconnect`: forget the socket; the next command opens a new one. */
  function Disconnect(led: Led): (r: Led)
    ensures r.socket.Disconnected?
    ensures r.state == led.state && r.nextId == led.nextId && r.outbox == led.outbox
  {
    led.(socket := Connection.Disconnect(led.socket))
  }

  /**
   * After `disconnect` the next command goes out only if a new socket can be
   * opened, and then on that new socket; the numbering carries on.
   */
  lemma SendAfterDisconnect(led: Led, req: Request, attempt: Connection.OpenResult)
    requires Build(req).Success?
    ensures var r := Send(Disconnect(led), req, attempt);
      && (r.1.Success? <==> attempt.Opened?)
      && (r.1.Success? ==> r.1.value == led.nextId && r.0.socket == Connection.Connected(attempt.handle))
  {
  }

  /**
   * Sending commands and ingesting notifications are independent: doing
   * them in either order leaves the same lamp and the same outcomes. Set
   * commands do not update the property record themselves; the lamp's
   * notification does, later.
   */
  lemma SendCommutesWithUpdate(led: Led, req: Request, attempt: Connection.OpenResult, params: seq<(string, string)>, now: int)
    ensures var sent := Send(led, req, attempt);
      var updated := UpdateState(led, params, now);
      && Send(updated.0, req, attempt).0 == UpdateState(sent.0, params, now).0
      && Send(updated.0, req, attempt).1 == sent.1
      && UpdateState(sent.0, params, now).1 == updated.1
  {
  }

  // ---------------------------------------------------------------------------
  // Capabilities: routing to the lights
  // ---------------------------------------------------------------------------

  /** Line 0 is the main light; any other line the background light. */
  function Line(line: int): (ch: Channel)
    ensures ch == Primary <==> line == 0
  {
    if line == 0 then Primary else Background
  }

  /** The transition every power capability uses, in milliseconds. */
  const PowerDuration: int := 300

  /**
   * `setPower`: switch the chosen light with a 300 ms smooth transition and
   * no mode; this never hits the duration check.
   */
  function SetPower(led: Led, on: bool, line: int, attempt: Connection.OpenResult): (r: (Led, Result<int, Error>))
    ensures Dispatched(led, attempt, r, Prefix(Line(line)) + "set_power",
      [PStr(if on then "on" else "off"), PStr("smooth"), PInt(300)])
  {
    var params := [PStr(if on then "on" else "off"), PStr("smooth"), PInt(300)];
    assert params + [] == params;
    Send(led, Commands.SetPower(Line(line), on, PowerDuration, 0), attempt)
  }

  function SetPowerOff(led: Led, line: int, attempt: Connection.OpenResult): (r: (Led, Result<int, Error>))
    ensures Dispatched(led, attempt, r, Prefix(Line(line)) + "set_power", [PStr("off"), PStr("smooth"), PInt(300)])
  {
    var params := [PStr("off"), PStr("smooth"), PInt(300)];
    assert params + [] == params;
    Send(led, Commands.SetPower(Line(line), false, PowerDuration, 0), attempt)
  }

  function SetPowerOn(led: Led, line: int, attempt: Connection.OpenResult): (r: (Led, Result<int, Error>))
    ensures Dispatched(led, attempt, r, Prefix(Line(line)) + "set_power", [PStr("on"), PStr("smooth"), PInt(300)])
  {
    var params := [PStr("on"), PStr("smooth"), PInt(300)];
    assert params + [] == params;
    Send(led, Commands.SetPower(Line(line), true, PowerDuration, 0), attempt)
  }

  /** `setPowerOff` and `setPowerOn` are `setPower` with the value fixed. */
  lemma PowerShortcuts(led: Led, line: int, attempt: Connection.OpenResult)
    ensures SetPowerOff(led, line, attempt) == SetPower(led, false, line, attempt)
    ensures SetPowerOn(led, line, attempt) == SetPower(led, true, line, attempt)
  {
  }

  /** `setCT`: set the colour temperature of the chosen light, instantly. */
  function SetCT(led: Led, ct: int, line: int, attempt: Connection.OpenResult): (r: (Led, Result<int, Error>))
    ensures Dispatched(led, attempt, r, Prefix(Line(line)) + "set_ct_abx", [PInt(ct), PStr("sudden"), PInt(0)])
  {
    Send(led, SetCtAbx(Line(line), ct, 0), attempt)
  }

  /**
   * `setHSV`: on line 0, set hue and saturation instantly; on any other line
   * the source sends the value component as the MAIN light's brightness
   * (`set_bright`, not `bg_set_hsv`), and hue and saturation are dropped.
   */
  function SetHSV(led: Led, hue: int, sat: int, value: int, line: int, attempt: Connection.OpenResult): (r: (Led, Result<int, Error>))
    ensures line == 0 ==> Dispatched(led, attempt, r, "set_hsv", [PInt(hue), PInt(sat), PStr("sudden"), PInt(0)])
    ensures line != 0 ==> Dispatched(led, attempt, r, "set_bright", [PInt(value), PStr("sudden"), PInt(0)])
  {
    assert Prefix(Primary) + "set_hsv" == "set_hsv" && Prefix(Primary) + "set_bright" == "set_bright";
    if line == 0 then Send(led, SetHsv(Primary, hue, sat, 0), attempt)
    else Send(led, SetBright(Primary, value, 0), attempt)
  }

  /** Off line 0, `setHSV` depends only on the value component. */
  lemma HsvOffLineIgnoresColour(led: Led, hue1: int, sat1: int, hue2: int, sat2: int, value: int, line: int, attempt: Connection.OpenResult)
    requires line != 0
    ensures SetHSV(led, hue1, sat1, value, line, attempt) == SetHSV(led, hue2, sat2, value, line, attempt)
    ensures SetHSV(led, hue1, sat1, value, line, attempt) == SetBrightness(led, value, 0, attempt)
  {
  }

  /**
   * `setRGB`: the integer colour goes through `dechex` and back through
   * `hexdec`, so a non-negative colour arrives unchanged and a negative one
   * as its 64-bit two's-complement reading.
   */
  function SetRGB(led: Led, rgb: int, line: int, attempt: Connection.OpenResult): (r: (Led, Result<int, Error>))
    ensures rgb >= 0 ==> Dispatched(led, attempt, r, Prefix(Line(line)) + "set_rgb", [PInt(rgb), PStr("sudden"), PInt(0)])
    ensures Numeric.PhpIntMin <= rgb < 0 ==>
      Dispatched(led, attempt, r, Prefix(Line(line)) + "set_rgb", [PInt(rgb + Hex.TwoTo64), PStr("sudden"), PInt(0)])
  {
    Send(led, SetRgb(Line(line), Hex.DecHex(rgb), 0), attempt)
  }

  /** `setBrightness`: set the chosen light's brightness, instantly. */
  function SetBrightness(led: Led, brightness: int, line: int, attempt: Connection.OpenResult): (r: (Led, Result<int, Error>))
    ensures Dispatched(led, attempt, r, Prefix(Line(line)) + "set_bright", [PInt(brightness), PStr("sudden"), PInt(0)])
  {
    Send(led, SetBright(Line(line), brightness, 0), attempt)
  }

  /** The capabilities never fail on the duration check: every failure is the socket's. */
  lemma CapabilitiesNeverRejectDuration(led: Led, n: int, line: int, attempt: Connection.OpenResult)
    ensures SetPower(led, true, line, attempt).1 != Failure(InvalidDuration)
    ensures SetCT(led, n, line, attempt).1 != Failure(InvalidDuration)
    ensures SetHSV(led, n, n, n, line, attempt).1 != Failure(InvalidDuration)
    ensures SetRGB(led, n, line, attempt).1 != Failure(InvalidDuration)
    ensures SetBrightness(led, n, line, attempt).1 != Failure(InvalidDuration)
  {
  }
}

=== FILE: numeric.dfy ===
/**
 * How PHP reads a number out of a string. A numeric prefix is leading
 * whitespace, an optional sign, then digits with an optional '.' and fraction
 * digits (or a '.' followed by at least one digit), then an optional exponent;
 * anything after it is trailing text. Two readings are built on it: the
 * `(int)` cast, and the weak-mode coercion of a string passed to an `int`
 * parameter of a built-in function such as `dechex`. Values are exact: the
 * rounding of a numeral with a fraction or exponent to a double is not
 * modelled.
 */
module Numeric {
  import opened Wrappers
  import Text

  /** The smallest PHP int, -2^63. */
  const PhpIntMin: int := -0x8000_0000_0000_0000

  /** The largest PHP int, 2^63 - 1. */
  const PhpIntMax: int := 0x7fff_ffff_ffff_ffff

  /** 2^63: a double converts to an int only when it lies in [-2^63, 2^63). */
  const TwoTo63: nat := 0x8000_0000_0000_0000

  /** 2^1024 - 2^970: the least magnitude a decimal numeral rounds to an infinite double from. */
  const InfinityBound: nat :=
    0xffff_ffff_ffff_fc00_0000_0000_0000_0000_0000_0000_0000_0000_0000_0000_0000_0000_0000_0000_0000_0000_0000_0000_0000_0000_0000_0000_0000_0000_0000_0000_0000_0000_0000_0000_0000_0000_0000_0000_0000_0000_0000_0000_0000_0000_0000_0000_0000_0000_0000_0000_0000_0000_0000_0000_0000_0000_0000_0000_0000_0000_0000_0000_0000_0000

  // ---------------------------------------------------------------------------
  // The numeric prefix
  // ---------------------------------------------------------------------------

  /** A run of decimal digits. */
  type Digits = s: string | Text.AllDigits(s)

  /**
   * A decimal numeral: its sign, all its mantissa digits (whole and fraction
   * together) and the power of ten that scales them.
   */
  datatype Numeral = Numeral(negative: bool, digits: Digits, scale: int)

  /** The numeral of an integer written with digits only. */
  function Exact(n: int): Numeral {
    if n < 0 then Numeral(true, Text.NatString(-n), 0) else Numeral(false, Text.NatString(n), 0)
  }

  /** The value of a numeral's digits, ignoring sign and scale. */
  function Mantissa(n: Numeral): nat {
    Text.DigitsValue(n.digits)
  }

  /** The exponent at the head of `s`: 'e' or 'E', an optional sign and at least one digit; 0 when absent. */
  function Exponent(s: string): int {
    if |s| > 0 && (s[0] == 'e' || s[0] == 'E') then
      var t := s[1..];
      var digits := Text.DigitPrefix(Text.Unsigned(t));
      if |digits| == 0 then 0
      else if t[0] == '-' then 0 - Text.DigitsValue(digits)
      else Text.DigitsValue(digits)
    else 0
  }

  /** What follows the whole digits: the fraction digits after a '.', if any, and the text after them. */
  function FractionPart(rest: string): (r: (string, string))
    ensures Text.AllDigits(r.0)
  {
    if |rest| > 0 && rest[0] == '.' then
      var fraction := Text.DigitPrefix(rest[1..]);
      (fraction, rest[1 + |fraction|..])
    else ("", rest)
  }

  /** The numeric prefix of `u`, which has had its whitespace and sign removed. */
  function ParseUnsigned(negative: bool, u: string): Option<Numeral> {
    var whole := Text.DigitPrefix(u);
    var rest := u[|whole|..];
    if |whole| == 0 && !(|rest| > 1 && rest[0] == '.' && Text.IsDigit(rest[1])) then None
    else
      var fraction := FractionPart(rest).0;
      Text.AllDigitsAppend(whole, fraction);
      Some(Numeral(negative, whole + fraction, Exponent(FractionPart(rest).1) - |fraction|))
  }

  /**
   * The numeric prefix of `s`, or None when `s` has none (after whitespace and
   * a sign, neither a digit nor a '.' followed by a digit).
   */
  function ParseNumeral(s: string): Option<Numeral> {
    var t := Text.TrimLeft(s);
    ParseUnsigned(|t| > 0 && t[0] == '-', Text.Unsigned(t))
  }

  /** `t` opens with a digit, or with a '.' and a digit. */
  predicate DigitStart(t: string) {
    (|t| > 0 && Text.IsDigit(t[0])) || (|t| > 1 && t[0] == '.' && Text.IsDigit(t[1]))
  }

  /** `t` opens with at most one sign character and then a digit start. */
  predicate SignedStart(t: string) {
    DigitStart(t) || (|t| > 0 && (t[0] == '+' || t[0] == '-') && DigitStart(t[1..]))
  }

  /**
   * A string has a numeric prefix exactly when it splits into a run of
   * whitespace and a rest that starts with an optional sign and then a digit,
   * or a '.' and a digit.
   */
  lemma NumeralStart(s: string)
    ensures ParseNumeral(s).Some? <==> exists k :: 0 <= k <= |s| && Text.AllSpace(s[..k]) && SignedStart(s[k..])
  {
    var t := Text.TrimLeft(s);
    var u := Text.Unsigned(t);
    assert ParseNumeral(s).Some? <==> DigitStart(u) by {
      assert |Text.DigitPrefix(u)| > 0 <==> |u| > 0 && Text.IsDigit(u[0]);
      if |Text.DigitPrefix(u)| == 0 {
        assert u[0..] == u;
      }
    }
    assert SignedStart(t) <==> DigitStart(u);
    if ParseNumeral(s).Some? {
      Text.TrimLeftSplit(s);
      var k := |s| - |t|;
      assert Text.AllSpace(s[..k]) && SignedStart(s[k..]);
    }
    if exists k :: 0 <= k <= |s| && Text.AllSpace(s[..k]) && SignedStart(s[k..]) {
      var k :| 0 <= k <= |s| && Text.AllSpace(s[..k]) && SignedStart(s[k..]);
      assert s[k..][0] == s[k];
      Text.TrimLeftAt(s, k);
    }
  }

  // ---------------------------------------------------------------------------
  // Reading the pieces of a numeral
  // ---------------------------------------------------------------------------

  /** A digit run stops at the first non-digit. */
  lemma {:induction false} DigitPrefixStops(d: string, rest: string)
    requires Text.AllDigits(d)
    requires |rest| == 0 || !Text.IsDigit(rest[0])
    ensures Text.DigitPrefix(d + rest) == d
    decreases |d|
  {
    if |d| > 0 {
      assert (d + rest)[1..] == d[1..] + rest;
      DigitPrefixStops(d[1..], rest);
    } else {
      assert d + rest == rest;
    }
  }

  /** A leading '-' makes the numeral negative and is skipped. */
  lemma MinusSkipped(u: string)
    ensures ParseNumeral("-" + u) == ParseUnsigned(true, u)
  {
    var s := "-" + u;
    assert s[0] == '-' && s[1..] == u;
    assert Text.TrimLeft(s) == s;
  }

  /** A numeral starting with a digit is read as it stands. */
  lemma DigitFirst(u: string)
    requires |u| > 0 && Text.IsDigit(u[0])
    ensures ParseNumeral(u) == ParseUnsigned(false, u)
  {
    assert !Text.IsSpace(u[0]);
    assert Text.TrimLeft(u) == u;
    assert Text.Unsigned(u) == u;
  }

  /** After a non-empty digit run, the fraction and exponent parts decide the scale. */
  lemma WholeThen(negative: bool, whole: string, rest: string)
    requires |whole| > 0 && Text.AllDigits(whole)
    requires |rest| == 0 || !Text.IsDigit(rest[0])
    ensures Text.AllDigits(whole + FractionPart(rest).0)
    ensures ParseUnsigned(negative, whole + rest)
      == Some(Numeral(negative, whole + FractionPart(rest).0, Exponent(FractionPart(rest).1) - |FractionPart(rest).0|))
  {
    var u := whole + rest;
    DigitPrefixStops(whole, rest);
    assert Text.DigitPrefix(u) == whole;
    assert u[|whole|..] == rest;
    Text.AllDigitsAppend(whole, FractionPart(rest).0);
  }

  /** A '.' and a digit run is all fraction. */
  lemma FractionOf(fraction: string)
    requires Text.AllDigits(fraction)
    ensures FractionPart("." + fraction) == (fraction, "")
  {
    var rest := "." + fraction;
    assert rest[1..] == fraction;
    Text.DigitPrefixAll(fraction);
    assert rest[1 + |fraction|..] == "";
  }

  /** 'e' and a digit run is an exponent of that value. */
  lemma ExponentOf(exp: string)
    requires |exp| > 0 && Text.AllDigits(exp)
    ensures Exponent("e" + exp) == Text.DigitsValue(exp)
  {
    assert ("e" + exp)[1..] == exp;
    Text.DigitPrefixAll(exp);
  }

  /** Digits, 'e' and digits: the mantissa scaled by the exponent. */
  lemma ParseExponentForm(whole: string, exp: string)
    requires |whole| > 0 && Text.AllDigits(whole)
    requires |exp| > 0 && Text.AllDigits(exp)
    ensures ParseNumeral(whole + ("e" + exp)) == Some(Numeral(false, whole, Text.DigitsValue(exp)))
  {
    var rest := "e" + exp;
    DigitFirst(whole + rest);
    WholeThen(false, whole, rest);
    assert FractionPart(rest) == ("", rest);
    ExponentOf(exp);
    assert whole + "" == whole;
  }

  /** A '-', digits, '.' and digits: the digits together, scaled down by the fraction's length. */
  lemma ParseNegativeFraction(whole: string, fraction: string)
    requires |whole| > 0 && Text.AllDigits(whole)
    requires Text.AllDigits(fraction)
    ensures Text.AllDigits(whole + fraction)
    ensures ParseNumeral("-" + (whole + ("." + fraction)))
      == Some(Numeral(true, whole + fraction, 0 - |fraction|))
  {
    var rest := "." + fraction;
    var u := whole + rest;
    Text.AllDigitsAppend(whole, fraction);
    FractionOf(fraction);
    assert Exponent("") == 0;
    WholeThen(true, whole, rest);
    assert ParseUnsigned(true, u) == Some(Numeral(true, whole + fraction, 0 - |fraction|));
    MinusSkipped(u);
  }

  /** Digits followed by text that starts neither a fraction nor an exponent: a whole number. */
  lemma ParseWholeOnly(whole: string, rest: string)
    requires |whole| > 0 && Text.AllDigits(whole)
    requires |rest| == 0 || (!Text.IsDigit(rest[0]) && rest[0] != '.' && rest[0] != 'e' && rest[0] != 'E')
    ensures ParseNumeral(whole + rest) == Some(Numeral(false, whole, 0))
  {
    DigitFirst(whole + rest);
    WholeThen(false, whole, rest);
    assert FractionPart(rest) == ("", rest);
    assert Exponent(rest) == 0;
    assert whole + "" == whole;
  }

  /** The decimal rendering of any integer reads back as exactly that integer. */
  lemma ParseDecimal(n: int)
    ensures ParseNumeral(Text.DecimalString(n)) == Some(Exact(n))
  {
    var d := if n < 0 then Text.NatString(-n) else Text.NatString(n);
    assert Text.IsDigit(d[0]);
    if n < 0 {
      MinusSkipped(d);
    } else {
      DigitFirst(d);
    }
    WholeThen(n < 0, d + "", "");
    assert d + "" == d;
    assert FractionPart("") == ("", "");
    assert Exponent("") == 0;
  }

  // ---------------------------------------------------------------------------
  // Magnitudes
  // ---------------------------------------------------------------------------

  /** `m` · 10^k. */
  function Scale(m: nat, k: nat): nat {
    if k == 0 then m else 10 * Scale(m, k - 1)
  }

  /** `m` / 10^k, rounding down. */
  function Shrink(m: nat, k: nat): nat {
    if k == 0 then m else Shrink(m / 10, k - 1)
  }

  /** Scaling up keeps a strict order. */
  lemma {:induction false} ScaleBelow(a: nat, b: nat, k: nat)
    requires a < b
    ensures Scale(a, k) < Scale(b, k)
  {
    if k > 0 {
      ScaleBelow(a, b, k - 1);
    }
  }

  /** Below `b` · 10^k, dropping k digits leaves less than `b` (at most `b` for the non-strict bound). */
  lemma {:induction false} ShrinkBelow(m: nat, b: nat, k: nat)
    ensures m < Scale(b, k) ==> Shrink(m, k) < b
    ensures m <= Scale(b, k) ==> Shrink(m, k) <= b
  {
    if k > 0 {
      ShrinkBelow(m / 10, b, k - 1);
    }
  }

  /** The magnitude of `n` is at least `bound`. */
  predicate AtLeast(n: Numeral, bound: nat) {
    if n.scale >= 0 then Scale(Mantissa(n), n.scale) >= bound
    else Mantissa(n) >= Scale(bound, -n.scale)
  }

  /** The magnitude of `n` exceeds `bound`. */
  predicate Exceeds(n: Numeral, bound: nat) {
    if n.scale >= 0 then Scale(Mantissa(n), n.scale) > bound
    else Mantissa(n) > Scale(bound, -n.scale)
  }

  /** PHP's test for a double that converts to an int: its value lies in [-2^63, 2^63). */
  predicate FitsInt(n: Numeral) {
    if n.negative then !Exceeds(n, TwoTo63) else !AtLeast(n, TwoTo63)
  }

  /** The numeral is too large for a double and reads as an infinity. */
  predicate Infinite(n: Numeral) {
    AtLeast(n, InfinityBound)
  }

  /** The magnitude of `n` with its fraction dropped. */
  function WholePart(n: Numeral): nat {
    if n.scale >= 0 then Scale(Mantissa(n), n.scale) else Shrink(Mantissa(n), -n.scale)
  }

  lemma WholePartBelow(n: Numeral, bound: nat)
    ensures !AtLeast(n, bound) ==> WholePart(n) < bound
    ensures !Exceeds(n, bound) ==> WholePart(n) <= bound
  {
    if n.scale < 0 {
      ShrinkBelow(Mantissa(n), bound, -n.scale);
    }
  }

  /** The value of `n` with its fraction dropped, rounding toward zero. */
  function Truncated(n: Numeral): (r: int)
    ensures FitsInt(n) ==> PhpIntMin <= r <= PhpIntMax
    ensures n.scale == 0 ==> r == (if n.negative then -(Mantissa(n) as int) else Mantissa(n))
  {
    WholePartBelow(n, TwoTo63);
    if n.negative then -(WholePart(n) as int) else WholePart(n)
  }

  /**
   * `w` is the magnitude of `n` with its fraction dropped: the exact value
   * when there is no fraction, otherwise the `w` with
   * `w`·10^k <= mantissa < (`w` + 1)·10^k for k digits after the point.
   */
  predicate IsWholePart(n: Numeral, w: nat) {
    if n.scale >= 0 then w == Scale(Mantissa(n), n.scale)
    else Scale(w, -n.scale) <= Mantissa(n) < Scale(w + 1, -n.scale)
  }

  /** Scaling up keeps order. */
  lemma ScaleMonotone(a: nat, b: nat, k: nat)
    requires a <= b
    ensures Scale(a, k) <= Scale(b, k)
  {
    if a < b {
      ScaleBelow(a, b, k);
    }
  }

  /** Dropping k digits rounds down: the result is the floor of `m` / 10^k. */
  lemma {:induction false} ShrinkFloor(m: nat, k: nat)
    ensures Scale(Shrink(m, k), k) <= m < Scale(Shrink(m, k) + 1, k)
  {
    if k > 0 {
      ShrinkFloor(m / 10, k - 1);
    }
  }

  /** `WholePart` is the one whole part of `n`. */
  lemma WholePartUnique(n: Numeral, w: nat)
    ensures IsWholePart(n, w) <==> w == WholePart(n)
  {
    if n.scale < 0 {
      var k := -n.scale;
      var q := WholePart(n);
      ShrinkFloor(Mantissa(n), k);
      if w < q {
        ScaleMonotone(w + 1, q, k);
      } else if q < w {
        ScaleMonotone(q + 1, w, k);
      }
    }
  }

  /** Against an integer bound, the magnitude of `n` and its whole part compare alike. */
  lemma WholePartBounds(n: Numeral, w: nat, bound: nat)
    requires IsWholePart(n, w)
    ensures AtLeast(n, bound) <==> w >= bound
    ensures w > bound ==> Exceeds(n, bound)
    ensures w < bound ==> !Exceeds(n, bound)
  {
    if n.scale < 0 {
      var k := -n.scale;
      if w >= bound {
        ScaleMonotone(bound, w, k);
      } else {
        ScaleMonotone(w + 1, bound, k);
      }
      if w > bound {
        ScaleMonotone(bound + 1, w, k);
        ScaleBelow(bound, bound + 1, k);
      }
    }
  }

  /** Dropping the fraction rounds toward zero: the result is the whole part with the numeral's sign. */
  lemma TruncatesTowardZero(n: Numeral, w: nat)
    requires IsWholePart(n, w)
    ensures Truncated(n) == (if n.negative then -(w as int) else w)
  {
    WholePartUnique(n, w);
  }

  /** A numeral that fits an int is far below the infinity bound. */
  lemma FitsIsFinite(n: Numeral)
    requires FitsInt(n)
    ensures !Infinite(n)
  {
    if n.scale < 0 {
      ScaleBelow(TwoTo63, InfinityBound, -n.scale);
    }
  }

  // ---------------------------------------------------------------------------
  // The two readings
  // ---------------------------------------------------------------------------

  /**
   * `(int)$s`: 0 without a numeric prefix and for an infinite value; the value
   * with its fraction dropped when it fits an int; otherwise the int bound on
   * the value's side.
   */
  function IntCast(s: string): (r: int)
    ensures PhpIntMin <= r <= PhpIntMax
    ensures ParseNumeral(s).None? ==> r == 0
  {
    match ParseNumeral(s)
    case None => 0
    case Some(n) =>
      if Infinite(n) then 0
      else if FitsInt(n) then Truncated(n)
      else if n.negative then PhpIntMin
      else PhpIntMax
  }

  /**
   * A string passed to an `int` parameter of a built-in under weak typing:
   * accepted when it has a numeric prefix whose value fits an int (trailing
   * text draws a warning, a fraction is dropped), None where PHP throws a
   * TypeError.
   */
  function IntArgument(s: string): (r: Option<int>)
    ensures r.Some? <==> ParseNumeral(s).Some? && FitsInt(ParseNumeral(s).value)
    ensures r.Some? ==> PhpIntMin <= r.value <= PhpIntMax
  {
    match ParseNumeral(s)
    case None => None
    case Some(n) => if FitsInt(n) then Some(Truncated(n)) else None
  }

  /** Wherever an int parameter accepts a string, the cast reads the same int. */
  lemma CastAgreesWithArgument(s: string)
    ensures IntArgument(s).Some? ==> IntCast(s) == IntArgument(s).value
  {
    if IntArgument(s).Some? {
      FitsIsFinite(ParseNumeral(s).value);
    }
  }

  /**
   * Both readings of a numeral whose whole part is `w`: below 2^63 they give
   * `w` with the numeral's sign, the fraction cut toward zero. Beyond the
   * int range the parameter refuses and the cast gives the int bound on the
   * value's side; from the infinity bound on, the cast gives 0.
   */
  lemma ReadsWholePart(s: string, w: nat)
    requires ParseNumeral(s).Some? && IsWholePart(ParseNumeral(s).value, w)
    ensures var n := ParseNumeral(s).value;
      w < TwoTo63 ==> IntArgument(s) == Some(if n.negative then -(w as int) else w)
    ensures var n := ParseNumeral(s).value;
      w < TwoTo63 ==> IntCast(s) == (if n.negative then -(w as int) else w)
    ensures var n := ParseNumeral(s).value;
      !n.negative && TwoTo63 <= w < InfinityBound ==> IntArgument(s) == None && IntCast(s) == PhpIntMax
    ensures var n := ParseNumeral(s).value;
      n.negative && TwoTo63 < w < InfinityBound ==> IntArgument(s) == None && IntCast(s) == PhpIntMin
    ensures w >= InfinityBound ==> IntArgument(s) == None && IntCast(s) == 0
  {
    var n := ParseNumeral(s).value;
    WholePartBounds(n, w, TwoTo63);
    WholePartBounds(n, w, InfinityBound);
    TruncatesTowardZero(n, w);
  }

  // ---------------------------------------------------------------------------
  // Decimal renderings
  // ---------------------------------------------------------------------------

  /**
   * The cast and the int parameter both read the rendering of a PHP int as
   * that int. A larger rendering is rejected by the parameter; the cast
   * clamps it to the int bound on its side below the infinity bound, and
   * gives 0 from that bound on.
   */
  lemma IntReadsDecimal(n: int)
    ensures PhpIntMin <= n <= PhpIntMax ==> IntCast(Text.DecimalString(n)) == n
    ensures IntArgument(Text.DecimalString(n)).Some? <==> PhpIntMin <= n <= PhpIntMax
    ensures PhpIntMin <= n <= PhpIntMax ==> IntArgument(Text.DecimalString(n)) == Some(n)
    ensures PhpIntMax < n < InfinityBound ==> IntCast(Text.DecimalString(n)) == PhpIntMax
    ensures 0 - InfinityBound < n < PhpIntMin ==> IntCast(Text.DecimalString(n)) == PhpIntMin
    ensures n >= InfinityBound || n <= 0 - InfinityBound ==> IntCast(Text.DecimalString(n)) == 0
  {
    ParseDecimal(n);
    var e := Exact(n);
    assert Truncated(e) == n;
    if PhpIntMin <= n <= PhpIntMax {
      assert FitsInt(e);
      FitsIsFinite(e);
    } else {
      assert !FitsInt(e);
    }
  }

  // ---------------------------------------------------------------------------
  // Fractions, exponents and trailing text
  // ---------------------------------------------------------------------------

  lemma ExponentForm()
    ensures ParseNumeral("4e3") == Some(Numeral(false, "4", 3))
    ensures IntCast("4e3") == 4000
    ensures IntArgument("4e3") == Some(4000)
  {
    ParseExponentForm("4", "3");
    assert "4" + ("e" + "3") == "4e3";
    assert Text.DigitsValue("4") == 4;
    assert Text.DigitsValue("3") == 3;
    assert Scale(4, 3) == 4000;
    assert WholePart(Numeral(false, "4", 3)) == 4000;
  }

  lemma FractionForm()
    ensures ParseNumeral("-7.9") == Some(Numeral(true, "79", -1))
    ensures IntCast("-7.9") == -7
  {
    FractionParse();
    var n := Numeral(true, "79", -1);
    assert Mantissa(n) == 79 by {
      assert "79"[..1] == "7";
    }
    assert Shrink(79, 1) == 7;
    assert WholePart(n) == 7;
  }

  lemma FractionParse()
    ensures ParseNumeral("-7.9") == Some(Numeral(true, "79", -1))
  {
    ParseNegativeFraction("7", "9");
    assert "-" + ("7" + ("." + "9")) == "-7.9";
    assert "7" + "9" == "79";
  }

  lemma TrailingText()
    ensures IntCast("12px") == 12
    ensures IntArgument("12px") == Some(12)
  {
    ParseWholeOnly("12", "px");
    assert "12" + "px" == "12px";
    assert Text.DigitsValue("12") == 12 by {
      assert "12"[..1] == "1";
    }
  }

  lemma NotNumeric()
    ensures IntCast("px") == 0
    ensures IntArgument("px") == None
    ensures IntCast(".e1") == 0
    ensures IntArgument(".e1") == None
  {
    assert Text.TrimLeft("px") == "px" && Text.Unsigned("px") == "px";
    assert Text.DigitPrefix("px") == "";
    assert Text.TrimLeft(".e1") == ".e1" && Text.Unsigned(".e1") == ".e1";
    assert Text.DigitPrefix(".e1") == "";
  }
}

=== FILE: state.dfy ===
/**
 * The lamp's last-known properties and its pending change events.
 *
 * `updateState` walks an incoming property map in order and hands each known
 * key to its handler. Identity keys (`Location`, `id`, `model`, `fw_ver`,
 * `name`) and `support` are stored silently; the seven observable ones
 * (`power`, `bright`, `color_mode`, `ct`, `rgb`, `hue`, `sat`) go through a
 * setter that stores the value and records an event only when it differs
 * from the stored one. `support` is stored as its space-separated words and
 * `rgb` as the hex spelling of its integer value. Unknown keys are skipped.
 * When the whole map has been handled the update time is stamped.
 */
module DeviceState {
  import opened Wrappers
  import Text
  import Hex
  import Numeric

  /** The properties the lamp knows by name. */
  datatype Property = Location | Id | Model | FwVer | Support | Power | Bright | ColorMode | Ct | Rgb | Hue | Sat | Name

  /** The key under which a property arrives in an update map (and is reported in events). */
  function KeyOf(p: Property): string {
    match p
    case Location => "Location"
    case Id => "id"
    case Model => "model"
    case FwVer => "fw_ver"
    case Support => "support"
    case Power => "power"
    case Bright => "bright"
    case ColorMode => "color_mode"
    case Ct => "ct"
    case Rgb => "rgb"
    case Hue => "hue"
    case Sat => "sat"
    case Name => "name"
  }

  /** The property an update key names, None for a key the lamp does not know. Case matters. */
  function PropertyOf(key: string): (r: Option<Property>)
    ensures r.Some? ==> KeyOf(r.value) == key
  {
    if key == "Location" then Some(Location)
    else if key == "id" then Some(Id)
    else if key == "model" then Some(Model)
    else if key == "fw_ver" then Some(FwVer)
    else if key == "support" then Some(Support)
    else if key == "power" then Some(Power)
    else if key == "bright" then Some(Bright)
    else if key == "color_mode" then Some(ColorMode)
    else if key == "ct" then Some(Ct)
    else if key == "rgb" then Some(Rgb)
    else if key == "hue" then Some(Hue)
    else if key == "sat" then Some(Sat)
    else if key == "name" then Some(Name)
    else None
  }

  /** Every property is dispatched from its own key, so no two properties share a key. */
  lemma DispatchRoundTrip(p: Property)
    ensures PropertyOf(KeyOf(p)) == Some(p)
  {
  }

  /** The properties whose changes are reported as events. */
  predicate Tracked(p: Property) {
    p.Power? || p.Bright? || p.ColorMode? || p.Ct? || p.Rgb? || p.Hue? || p.Sat?
  }

  /** A stored value: a string, or the word list `support` is split into. */
  datatype Stored = Scalar(text: string) | Words(words: seq<string>)

  /**
   * The lamp's state. A property missing from `props` has never been set
   * (PHP `null`). `events` maps each changed property to its latest value.
   */
  datatype State = State(props: map<Property, Stored>, events: map<Property, string>, updated: int)

  /** A freshly constructed lamp: nothing known, nothing pending, update time 0. */
  function Initial(): (s: State)
    ensures s.props == map[] && s.events == map[] && s.updated == 0
  {
    State(map[], map[], 0)
  }

  function Get(s: State, p: Property): Option<Stored> {
    if p in s.props then Some(s.props[p]) else None
  }

  /**
   * The form in which a property's incoming value is stored: `support` as its
   * space-separated words, `rgb` as the hex spelling of its leading integer
   * (None when the value has no leading integer, where PHP's `dechex` throws),
   * every other property as the string itself.
   */
  function Ingest(p: Property, value: string): (r: Option<Stored>)
    ensures p == Rgb ==> (r.Some? <==> Numeric.IntArgument(value).Some?)
    ensures p == Rgb && r.Some? ==> r.value == Scalar(Hex.DecHex(Numeric.IntArgument(value).value))
    ensures p == Support ==> r == Some(Words(Text.Split(value, ' ')))
    ensures p != Support && p != Rgb ==> r == Some(Scalar(value))
    ensures r.Some? && Tracked(p) ==> r.value.Scalar?
  {
    match p
    case Support => Some(Words(Text.Split(value, ' ')))
    case Rgb =>
      (match Numeric.IntArgument(value)
       case None => None
       case Some(n) => Some(Scalar(Hex.DecHex(n))))
    case _ => Some(Scalar(value))
  }

  /**
   * Storing a property. For a tracked property this is the change-detecting
   * setter: the value is stored and `events[p]` set to it exactly when it
   * differs from the stored one; untracked properties are stored without an
   * event. No other property and no other event is touched.
   */
  function Store(s: State, p: Property, v: Stored): (r: State)
    requires Tracked(p) ==> v.Scalar?
    ensures r.updated == s.updated
    ensures Get(r, p) == Some(v)
    ensures forall q :: q != p ==> Get(r, q) == Get(s, q)
    ensures Tracked(p) && Get(s, p) != Some(v) ==> r.events == s.events[p := v.text]
    ensures !(Tracked(p) && Get(s, p) != Some(v)) ==> r.events == s.events
  {
    if !Tracked(p) then s.(props := s.props[p := v])
    else if Get(s, p) == Some(v) then s
    else s.(props := s.props[p := v], events := s.events[p := v.text])
  }

  /** Re-applying the value just stored changes neither the state nor the events. */
  lemma StoreIdempotent(s: State, p: Property, v: Stored)
    requires Tracked(p) ==> v.Scalar?
    ensures Store(Store(s, p, v), p, v) == Store(s, p, v)
  {
  }

  /** Two changes in a row leave only the second value pending. */
  lemma StoreLatest(s: State, p: Property, v1: Stored, v2: Stored)
    requires Tracked(p) && v1.Scalar? && v2.Scalar?
    requires Get(s, p) != Some(v1) && v1 != v2
    ensures Store(Store(s, p, v1), p, v2).events == s.events[p := v2.text]
  {
  }

  /** Whether handling `key` with `value` goes through without PHP throwing. */
  predicate Accepts(key: string, value: string) {
    PropertyOf(key) != Some(Rgb) || Numeric.IntArgument(value).Some?
  }

  /** Every entry of the map is accepted. */
  predicate WellFormed(params: seq<(string, string)>) {
    forall i :: 0 <= i < |params| ==> Accepts(params[i].0, params[i].1)
  }

  /** The handler for one entry of an update map; None where PHP throws. */
  function Step(s: State, key: string, value: string): (r: Option<State>)
    ensures r.Some? <==> Accepts(key, value)
  {
    match PropertyOf(key)
    case None => Some(s)
    case Some(p) =>
      match Ingest(p, value)
      case None => None
      case Some(v) => Some(Store(s, p, v))
  }

  /** How handling an update map ends: it ran to the end, or a handler threw part way. */
  datatype Outcome = Completed(state: State) | Threw(state: State)

  /** The entries of an update map handled in order, without stamping the time. */
  function Process(s: State, params: seq<(string, string)>): (r: Outcome)
    ensures r.Completed? <==> WellFormed(params)
    decreases |params|
  {
    if |params| == 0 then Completed(s)
    else
      match Step(s, params[0].0, params[0].1)
      case None => Threw(s)
      case Some(s1) =>
        var r := Process(s1, params[1..]);
        assert WellFormed(params) <==> Accepts(params[0].0, params[0].1) && WellFormed(params[1..]) by {
          assert forall i :: 0 < i < |params| ==> params[1..][i - 1] == params[i];
        }
        r
  }

  /**
   * `updateState`: handle every entry, then stamp `updated` with the clock
   * reading `now`. If a handler throws, the entries before it stay applied
   * and the time is not stamped.
   */
  function UpdateState(s: State, params: seq<(string, string)>, now: int): (r: Outcome)
    ensures r.Completed? <==> WellFormed(params)
    ensures r.Completed? ==> r.state.updated == now
    ensures r.Threw? ==> r.state.updated == s.updated
  {
    match Process(s, params)
    case Completed(s1) => ProcessKeepsTime(s, params); Completed(s1.(updated := now))
    case Threw(s1) => ProcessKeepsTime(s, params); Threw(s1)
  }

  /**
   * The first rejected entry ends the walk: the state left behind is exactly
   * what the entries before it produce, and the time is not stamped.
   */
  lemma {:induction false} ThrowKeepsPrefix(s: State, params: seq<(string, string)>, k: nat, now: int)
    requires k < |params| && WellFormed(params[..k])
    requires !Accepts(params[k].0, params[k].1)
    ensures Process(s, params[..k]).Completed?
    ensures Process(s, params) == Threw(Process(s, params[..k]).state)
    ensures UpdateState(s, params, now) == Threw(Process(s, params[..k]).state)
    decreases k
  {
    if k > 0 {
      assert Accepts(params[..k][0].0, params[..k][0].1);
      var s1 := Step(s, params[0].0, params[0].1).value;
      var tail := params[1..];
      assert tail[..k - 1] == params[..k][1..];
      ThrowKeepsPrefix(s1, tail, k - 1, now);
    }
  }

  lemma {:induction false} ProcessKeepsTime(s: State, params: seq<(string, string)>)
    ensures Process(s, params).state.updated == s.updated
    decreases |params|
  {
    if |params| > 0 {
      var st := Step(s, params[0].0, params[0].1);
      if st.Some? {
        ProcessKeepsTime(st.value, params[1..]);
      }
    }
  }

  /**
   * `getEvents`: null when nothing is pending; otherwise the whole pending map,
   * which is cleared. Nothing but the pending map changes.
   */
  function GetEvents(s: State): (r: (Option<map<Property, string>>, State))
    ensures r.0.None? <==> s.events == map[]
    ensures r.0.Some? ==> r.0.value == s.events
    ensures r.1 == s.(events := map[])
  {
    if |s.events| == 0 then (None, s) else (Some(s.events), s.(events := map[]))
  }

  /** Draining twice in a row: the second drain finds nothing. */
  lemma DrainTwice(s: State)
    ensures GetEvents(GetEvents(s).1).0 == None
    ensures GetEvents(GetEvents(s).1).1 == GetEvents(s).1
  {
  }

  // ---------------------------------------------------------------------------
  // What an update does, in closed form
  // ---------------------------------------------------------------------------

  function MapsTo(entry: (string, string), p: Property): bool {
    PropertyOf(entry.0) == Some(p)
  }

  /** The stored form of the last entry for `p`, None when no entry names `p`. */
  function Last(params: seq<(string, string)>, p: Property): (r: Option<Stored>)
    ensures r.Some? && Tracked(p) ==> r.value.Scalar?
    decreases |params|
  {
    if |params| == 0 then None
    else
      match Last(params[1..], p)
      case Some(v) => Some(v)
      case None => if MapsTo(params[0], p) then Ingest(p, params[0].1) else None
  }

  /** Some entry for `p` carries a value other than `f`. */
  function Differs(f: Option<Stored>, params: seq<(string, string)>, p: Property): bool
    decreases |params|
  {
    if |params| == 0 then false
    else (MapsTo(params[0], p) && Ingest(p, params[0].1) != f) || Differs(f, params[1..], p)
  }

  lemma WellFormedTail(params: seq<(string, string)>)
    requires |params| > 0 && WellFormed(params)
    ensures WellFormed(params[1..]) && Accepts(params[0].0, params[0].1)
  {
    assert forall i :: 0 <= i < |params| - 1 ==> params[1..][i] == params[i + 1];
  }

  /** An entry that differs means there is a last entry. */
  lemma {:induction false} DiffersHasLast(f: Option<Stored>, params: seq<(string, string)>, p: Property)
    requires WellFormed(params) && Differs(f, params, p)
    ensures Last(params, p).Some?
    decreases |params|
  {
    WellFormedTail(params);
    if Differs(f, params[1..], p) {
      DiffersHasLast(f, params[1..], p);
    }
  }

  /** When no entry differs from `f`, the last entry (if any) is `f` itself. */
  lemma {:induction false} SameLast(f: Option<Stored>, params: seq<(string, string)>, p: Property)
    requires !Differs(f, params, p) && Last(params, p).Some?
    ensures Last(params, p) == f
    decreases |params|
  {
    if Last(params[1..], p).Some? {
      SameLast(f, params[1..], p);
    }
  }

  /**
   * The properties an update leaves: each holds the stored form of its last
   * entry, or its old value when the map does not name it.
   */
  lemma {:induction false} ProcessProps(s: State, params: seq<(string, string)>, p: Property)
    requires WellFormed(params)
    ensures Get(Process(s, params).state, p) == (if Last(params, p).Some? then Last(params, p) else Get(s, p))
    decreases |params|
  {
    if |params| > 0 {
      WellFormedTail(params);
      var s1 := Step(s, params[0].0, params[0].1).value;
      assert Process(s, params) == Process(s1, params[1..]);
      ProcessProps(s1, params[1..], p);
    }
  }

  /** Whether an update records an event for `p` over the stored value `f`. */
  predicate Changes(f: Option<Stored>, params: seq<(string, string)>, p: Property) {
    Tracked(p) && Differs(f, params, p)
  }

  /** The events `r` holds for `p` after the entries `params` were applied to `s`. */
  predicate EventsAfter(s: State, params: seq<(string, string)>, p: Property, r: State) {
    && (p in r.events <==> p in s.events || Changes(Get(s, p), params, p))
    && (Changes(Get(s, p), params, p) ==> Last(params, p).Some? && p in r.events && r.events[p] == Last(params, p).value.text)
    && (!Changes(Get(s, p), params, p) && p in s.events ==> p in r.events && r.events[p] == s.events[p])
  }

  /**
   * The events an update leaves: a tracked property gains a pending event,
   * holding its last value, exactly when some entry for it differs from the
   * value stored before; every other pending event, and every event of an
   * untracked property, stays as it was.
   */
  lemma {:induction false} ProcessEvents(s: State, params: seq<(string, string)>, p: Property)
    requires WellFormed(params)
    ensures EventsAfter(s, params, p, Process(s, params).state)
    decreases |params|
  {
    if |params| > 0 {
      WellFormedTail(params);
      var s1 := Step(s, params[0].0, params[0].1).value;
      assert Process(s, params) == Process(s1, params[1..]);
      ProcessEvents(s1, params[1..], p);
      EventsStep(s, params, p, Process(s1, params[1..]).state);
    }
  }

  /** One entry in front of a tail whose effect on the events is known. */
  lemma EventsStep(s: State, params: seq<(string, string)>, p: Property, r: State)
    requires |params| > 0 && WellFormed(params)
    requires Step(s, params[0].0, params[0].1).Some?
    requires EventsAfter(Step(s, params[0].0, params[0].1).value, params[1..], p, r)
    ensures EventsAfter(s, params, p, r)
  {
    WellFormedTail(params);
    var e := params[0];
    var rest := params[1..];
    var s1 := Step(s, e.0, e.1).value;
    if Changes(Get(s1, p), rest, p) {
      DiffersHasLast(Get(s1, p), rest, p);
    }
    if !MapsTo(e, p) {
      EventsStepOther(s, params, p, r);
    } else if Tracked(p) {
      var v := Ingest(p, e.1).value;
      if Get(s, p) == Some(v) {
        assert s1 == s;
        assert Differs(Get(s, p), params, p) == Differs(Get(s, p), rest, p);
      } else {
        EventsStepChanged(s, params, p, r, v);
      }
    }
  }

  /** The head entry names another property. */
  lemma EventsStepOther(s: State, params: seq<(string, string)>, p: Property, r: State)
    requires |params| > 0 && !MapsTo(params[0], p)
    requires Step(s, params[0].0, params[0].1).Some?
    requires EventsAfter(Step(s, params[0].0, params[0].1).value, params[1..], p, r)
    ensures EventsAfter(s, params, p, r)
  {
    var rest := params[1..];
    StepOther(s, params[0].0, params[0].1, p);
    assert Last(params, p) == Last(rest, p);
    assert Differs(Get(s, p), params, p) == Differs(Get(s, p), rest, p);
  }

  /** Handling an entry for another property leaves `p` and its event alone. */
  lemma StepOther(s: State, key: string, value: string, p: Property)
    requires PropertyOf(key) != Some(p) && Step(s, key, value).Some?
    ensures var s1 := Step(s, key, value).value;
      && Get(s1, p) == Get(s, p)
      && (p in s1.events <==> p in s.events)
      && (p in s.events ==> s1.events[p] == s.events[p])
  {
    match PropertyOf(key)
    case None =>
    case Some(q) =>
      var v := Ingest(q, value).value;
      assert Step(s, key, value).value == Store(s, q, v);
  }

  /** The head entry changes a tracked property. */
  lemma EventsStepChanged(s: State, params: seq<(string, string)>, p: Property, r: State, v: Stored)
    requires |params| > 0 && WellFormed(params) && Tracked(p) && MapsTo(params[0], p)
    requires Ingest(p, params[0].1) == Some(v) && Get(s, p) != Some(v)
    requires Step(s, params[0].0, params[0].1) == Some(Store(s, p, v))
    requires EventsAfter(Store(s, p, v), params[1..], p, r)
    ensures EventsAfter(s, params, p, r)
  {
    var rest := params[1..];
    assert Differs(Get(s, p), params, p);
    assert Get(Store(s, p, v), p) == Some(v);
    if Differs(Some(v), rest, p) {
      DiffersHasLast(Some(v), rest, p);
    } else if Last(rest, p).Some? {
      SameLast(Some(v), rest, p);
    }
  }

  // ---------------------------------------------------------------------------
  // Consequences
  // ---------------------------------------------------------------------------

  /** The entry-wise facts behind idempotence, for one property. */
  lemma ReapplyAt(s: State, s': State, params: seq<(string, string)>, p: Property)
    requires WellFormed(params)
    requires s'.props == Process(s, params).state.props && s'.events == Process(s, params).state.events
    ensures var r := Process(s', params).state;
      && Get(r, p) == Get(s', p)
      && (p in r.events <==> p in s'.events)
      && (p in s'.events ==> r.events[p] == s'.events[p])
  {
    ProcessProps(s, params, p);
    ProcessEvents(s, params, p);
    ProcessProps(s', params, p);
    ProcessEvents(s', params, p);
    assert Get(s', p) == Get(Process(s, params).state, p);
    if Changes(Get(s', p), params, p) {
      DiffersHasLast(Get(s', p), params, p);
      if !Changes(Get(s, p), params, p) {
        SameLast(Get(s, p), params, p);
      }
    }
  }

  /** Replaying an accepted update map on the record it produced completes and changes nothing. */
  lemma ReplayAccepted(s: State, s': State, params: seq<(string, string)>)
    requires WellFormed(params)
    requires s'.props == Process(s, params).state.props && s'.events == Process(s, params).state.events
    ensures Process(s', params) == Completed(s')
  {
    var r := Process(s', params).state;
    forall p: Property
      ensures Get(r, p) == Get(s', p)
      ensures p in r.events <==> p in s'.events
      ensures p in s'.events ==> r.events[p] == s'.events[p]
    {
      ReapplyAt(s, s', params, p);
    }
    assert forall p :: p in r.props <==> Get(r, p).Some?;
    assert r.props == s'.props;
    assert r.events == s'.events;
    ProcessKeepsTime(s', params);
  }

  /** An accepted entry followed by an accepted run is an accepted run. */
  lemma WellFormedCons(params: seq<(string, string)>, k: nat)
    requires k < |params| && Accepts(params[0].0, params[0].1) && WellFormed(params[1..][..k])
    ensures WellFormed(params[..k + 1])
  {
    assert params[..k + 1] == [params[0]] + params[1..][..k];
  }

  /** The first entry of a map that throws. */
  function FirstRefused(params: seq<(string, string)>): (k: nat)
    requires !WellFormed(params)
    ensures k < |params| && WellFormed(params[..k]) && !Accepts(params[k].0, params[k].1)
    decreases |params|
  {
    if !Accepts(params[0].0, params[0].1) then 0
    else
      var k := FirstRefused(params[1..]);
      WellFormedCons(params, k);
      k + 1
  }

  /**
   * Applying the same update map again changes nothing: the properties and
   * the pending events are those the first application left. An accepted
   * map completes again; a map that throws throws again at the same entry,
   * before anything is stored.
   */
  lemma ProcessIdempotent(s: State, s': State, params: seq<(string, string)>)
    requires s'.props == Process(s, params).state.props && s'.events == Process(s, params).state.events
    ensures WellFormed(params) ==> Process(s', params) == Completed(s')
    ensures !WellFormed(params) ==> Process(s', params) == Threw(s')
  {
    if WellFormed(params) {
      ReplayAccepted(s, s', params);
    } else {
      var k := FirstRefused(params);
      ThrowKeepsPrefix(s, params, k, 0);
      ReplayAccepted(s, s', params[..k]);
      ThrowKeepsPrefix(s', params, k, 0);
    }
  }

  /**
   * `updateState` is idempotent: a second call with the same map only moves
   * the update time when the map is accepted, and throws again with the
   * record untouched when it is not; either way no further event is queued.
   */
  lemma UpdateIdempotent(s: State, params: seq<(string, string)>, t1: int, t2: int)
    ensures var s1 := UpdateState(s, params, t1).state;
      WellFormed(params) ==> UpdateState(s1, params, t2) == Completed(s1.(updated := t2))
    ensures var s1 := UpdateState(s, params, t1).state;
      !WellFormed(params) ==> UpdateState(s1, params, t2) == Threw(s1)
  {
    var s1 := UpdateState(s, params, t1).state;
    if !WellFormed(params) {
      ThrowKeepsPrefix(s, params, FirstRefused(params), t1);
    }
    ProcessIdempotent(s, s1, params);
  }

  /** The entries whose key the lamp knows, in order. */
  function Known(params: seq<(string, string)>): (r: seq<(string, string)>)
    ensures forall i :: 0 <= i < |r| ==> PropertyOf(r[i].0).Some?
    decreases |params|
  {
    if |params| == 0 then []
    else if PropertyOf(params[0].0).None? then Known(params[1..])
    else [params[0]] + Known(params[1..])
  }

  /** Unknown keys are skipped: dropping them changes nothing, success included. */
  lemma {:induction false} UnknownKeysIgnored(s: State, params: seq<(string, string)>)
    ensures Process(s, params) == Process(s, Known(params))
    decreases |params|
  {
    if |params| > 0 {
      UnknownKeysIgnored(s, params[1..]);
      var st := Step(s, params[0].0, params[0].1);
      if PropertyOf(params[0].0).None? {
        assert st == Some(s);
      } else {
        var k := Known(params);
        assert k[1..] == Known(params[1..]);
        if st.Some? {
          UnknownKeysIgnored(st.value, params[1..]);
        }
      }
    }
  }

  /** No entry of the map names `p`. */
  predicate Silent(params: seq<(string, string)>, p: Property) {
    forall i :: 0 <= i < |params| ==> !MapsTo(params[i], p)
  }

  lemma {:induction false} SilentNoDiffer(f: Option<Stored>, params: seq<(string, string)>, p: Property)
    requires Silent(params, p)
    ensures !Differs(f, params, p) && Last(params, p).None?
    decreases |params|
  {
    if |params| > 0 {
      assert Silent(params[1..], p) by {
        assert forall i :: 0 <= i < |params| - 1 ==> params[1..][i] == params[i + 1];
      }
      SilentNoDiffer(f, params[1..], p);
    }
  }

  /**
   * A map that names no tracked property (only identity keys, `support` and
   * unknown keys) records no event at all.
   */
  lemma IdentityKeysSilent(s: State, params: seq<(string, string)>)
    requires WellFormed(params)
    requires forall p :: Tracked(p) ==> Silent(params, p)
    ensures Process(s, params).state.events == s.events
  {
    var r := Process(s, params).state;
    forall p: Property
      ensures p in r.events <==> p in s.events
      ensures p in s.events ==> r.events[p] == s.events[p]
    {
      ProcessEvents(s, params, p);
      if Tracked(p) {
        SilentNoDiffer(Get(s, p), params, p);
      }
    }
  }

  /** Every pending event is of a tracked property and holds its current value. */
  predicate Consistent(s: State) {
    forall p :: p in s.events ==> Tracked(p) && Get(s, p) == Some(Scalar(s.events[p]))
  }

  lemma StoreConsistent(s: State, p: Property, v: Stored)
    requires Consistent(s) && (Tracked(p) ==> v.Scalar?)
    ensures Consistent(Store(s, p, v))
  {
    var r := Store(s, p, v);
    forall q | q in r.events
      ensures Tracked(q) && Get(r, q) == Some(Scalar(r.events[q]))
    {
      if q != p {
        assert q in s.events;
      }
    }
  }

  /** Handling an update map keeps the events consistent, even when a handler throws. */
  lemma {:induction false} ProcessConsistent(s: State, params: seq<(string, string)>)
    requires Consistent(s)
    ensures Consistent(Process(s, params).state)
    decreases |params|
  {
    if |params| > 0 {
      match PropertyOf(params[0].0)
      case None =>
        ProcessConsistent(s, params[1..]);
      case Some(p) =>
        match Ingest(p, params[0].1)
        case None =>
        case Some(v) =>
          StoreConsistent(s, p, v);
          ProcessConsistent(Store(s, p, v), params[1..]);
    }
  }

  /** Consistency holds from construction on, across updates and drains. */
  lemma ConsistentAlways(s: State, params: seq<(string, string)>, now: int)
    requires Consistent(s)
    ensures Consistent(Initial())
    ensures Consistent(UpdateState(s, params, now).state)
    ensures Consistent(GetEvents(s).1)
  {
    ProcessConsistent(s, params);
  }

  /** `support` is kept as its space-separated words, which join back to the reported string. */
  lemma SupportWords(s: State, value: string, now: int)
    ensures var r := UpdateState(s, [("support", value)], now);
      && r.Completed?
      && r.state.events == s.events
      && Get(r.state, Support) == Some(Words(Text.Split(value, ' ')))
  {
    var ps := [("support", value)];
    assert ps[1..] == [];
    assert WellFormed(ps);
    assert Last(ps, Support) == Some(Words(Text.Split(value, ' ')));
    ProcessProps(s, ps, Support);
    assert forall p :: Tracked(p) ==> Silent(ps, p);
    IdentityKeysSilent(s, ps);
  }

  /**
   * A decimal `rgb` reading of a PHP int is stored as the `dechex` spelling
   * of that int (reading the spelling back with `hexdec` gives the int, or
   * for a negative one its 64-bit two's-complement reading), and is reported
   * as an event when it differs from the stored colour.
   */
  lemma RgbStoredAsHex(s: State, n: int, now: int)
    requires Numeric.PhpIntMin <= n <= Numeric.PhpIntMax
    ensures var r := UpdateState(s, [("rgb", Text.DecimalString(n))], now);
      && r.Completed?
      && Get(r.state, Rgb) == Some(Scalar(Hex.DecHex(n)))
      && Hex.HexDec(Hex.DecHex(n)) == (if n >= 0 then n else n + Hex.TwoTo64)
      && (Get(s, Rgb) != Some(Scalar(Hex.DecHex(n))) ==> r.state.events == s.events[Rgb := Hex.DecHex(n)])
      && (Get(s, Rgb) == Some(Scalar(Hex.DecHex(n))) ==> r.state.events == s.events)
  {
    var d := Text.DecimalString(n);
    var v := Scalar(Hex.DecHex(n));
    Numeric.IntReadsDecimal(n);
    assert Ingest(Rgb, d) == Some(v);
    DispatchRoundTrip(Rgb);
    assert Step(s, "rgb", d) == Some(Store(s, Rgb, v));
    ProcessSingle(s, "rgb", d);
  }

  /**
   * An `rgb` reading beyond the range of a PHP int is refused by `dechex`:
   * the update throws before anything is stored or stamped.
   */
  lemma RgbBeyondIntThrows(s: State, n: int, now: int)
    requires n < Numeric.PhpIntMin || Numeric.PhpIntMax < n
    ensures UpdateState(s, [("rgb", Text.DecimalString(n))], now) == Threw(s)
  {
    var d := Text.DecimalString(n);
    Numeric.IntReadsDecimal(n);
    DispatchRoundTrip(Rgb);
    assert Step(s, "rgb", d).None?;
  }

  /** A one-entry update map is handled by that entry's handler alone. */
  lemma ProcessSingle(s: State, key: string, value: string)
    requires Step(s, key, value).Some?
    ensures Process(s, [(key, value)]) == Completed(Step(s, key, value).value)
  {
    assert [(key, value)][1..] == [];
  }
}

=== FILE: text.dfy ===
/**
 * The PHP string primitives the device model relies on: `explode`/`implode`
 * on a one-character separator, integer-to-decimal conversion (string
 * interpolation of an int) and the scanning pieces of a numeric prefix
 * (whitespace, sign, digit run) from which the module Numeric reads numbers.
 */
module Text {
  import opened Wrappers

  // ---------------------------------------------------------------------------
  // explode / implode
  // ---------------------------------------------------------------------------

  /** `implode(sep, parts)`: the parts with one separator between neighbours. */
  function Join(parts: seq<string>, sep: char): string
    requires |parts| >= 1
  {
    if |parts| == 1 then parts[0] else parts[0] + [sep] + Join(parts[1..], sep)
  }

  /**
   * `explode(sep, s)`: the maximal separator-free pieces of `s`, in order.
   * Like PHP, an empty string gives one empty piece and neighbouring
   * separators give empty pieces between them.
   */
  function Split(s: string, sep: char): (parts: seq<string>)
    ensures |parts| >= 1
    ensures forall i :: 0 <= i < |parts| ==> sep !in parts[i]
    ensures Join(parts, sep) == s
    decreases |s|
  {
    if |s| == 0 then [""]
    else
      var rest := Split(s[1..], sep);
      if s[0] == sep then
        assert s == [sep] + s[1..];
        [""] + rest
      else
        var parts := [[s[0]] + rest[0]] + rest[1..];
        assert parts[1..] == rest[1..];
        assert Join(parts, sep) == s by {
          if |rest| == 1 {
          } else {
            assert Join(rest, sep) == rest[0] + [sep] + Join(rest[1..], sep);
          }
        }
        parts
  }

  /** `explode` undoes `implode` when no part contains the separator. */
  lemma {:induction false} SplitJoin(parts: seq<string>, sep: char)
    requires |parts| >= 1
    requires forall i :: 0 <= i < |parts| ==> sep !in parts[i]
    ensures Split(Join(parts, sep), sep) == parts
    decreases |parts|, |parts[0]|
  {
    if |parts| == 1 {
      SplitNoSep(parts[0], sep);
    } else if |parts[0]| == 0 {
      SplitJoin(parts[1..], sep);
      SplitJoinEmptyHead(parts, sep);
    } else {
      var shorter := Shorter(parts, sep);
      SplitJoin(shorter, sep);
      SplitJoinCharHead(parts, sep);
    }
  }

  /** `parts` with the first character of its first part removed. */
  function Shorter(parts: seq<string>, sep: char): (r: seq<string>)
    requires |parts| >= 2 && |parts[0]| > 0
    requires forall i :: 0 <= i < |parts| ==> sep !in parts[i]
    ensures |r| == |parts| && |r[0]| < |parts[0]| && r[1..] == parts[1..]
    ensures forall i :: 0 <= i < |r| ==> sep !in r[i]
  {
    var r := [parts[0][1..]] + parts[1..];
    assert r[1..] == parts[1..];
    assert forall i :: 1 <= i < |r| ==> r[i] == parts[i];
    r
  }

  /** The inductive step for an empty first part. */
  lemma SplitJoinEmptyHead(parts: seq<string>, sep: char)
    requires |parts| >= 2 && |parts[0]| == 0
    requires Split(Join(parts[1..], sep), sep) == parts[1..]
    ensures Split(Join(parts, sep), sep) == parts
  {
    var tail := Join(parts[1..], sep);
    assert Join(parts, sep) == [sep] + tail;
    SplitSepFirst(tail, sep);
    assert parts == [""] + parts[1..];
  }

  /** The inductive step for a first part that starts with a character. */
  lemma SplitJoinCharHead(parts: seq<string>, sep: char)
    requires |parts| >= 2 && |parts[0]| > 0
    requires forall i :: 0 <= i < |parts| ==> sep !in parts[i]
    requires Split(Join(Shorter(parts, sep), sep), sep) == Shorter(parts, sep)
    ensures Split(Join(parts, sep), sep) == parts
  {
    var c := parts[0][0];
    var shorter := Shorter(parts, sep);
    JoinShorter(parts, sep);
    assert c != sep;
    SplitOtherFirst(c, Join(shorter, sep), sep);
    assert parts[0] == [c] + shorter[0];
    assert [[c] + shorter[0]] + shorter[1..] == parts;
  }

  /** Joining moves the first character of the first part to the front. */
  lemma JoinShorter(parts: seq<string>, sep: char)
    requires |parts| >= 2 && |parts[0]| > 0
    ensures Join(parts, sep) == [parts[0][0]] + Join([parts[0][1..]] + parts[1..], sep)
  {
    var shorter := [parts[0][1..]] + parts[1..];
    assert shorter[1..] == parts[1..];
    assert parts[0] == [parts[0][0]] + parts[0][1..];
  }

  /** A leading separator starts an empty first piece. */
  lemma SplitSepFirst(t: string, sep: char)
    ensures Split([sep] + t, sep) == [""] + Split(t, sep)
  {
    assert ([sep] + t)[1..] == t;
  }

  /** A leading non-separator joins the first piece of the rest. */
  lemma SplitOtherFirst(c: char, t: string, sep: char)
    requires c != sep
    ensures Split([c] + t, sep) == [[c] + Split(t, sep)[0]] + Split(t, sep)[1..]
  {
    assert ([c] + t)[1..] == t;
  }

  /** A separator-free string explodes to itself alone. */
  lemma {:induction false} SplitNoSep(s: string, sep: char)
    requires sep !in s
    ensures Split(s, sep) == [s]
    decreases |s|
  {
    if |s| > 0 {
      assert sep !in s[1..];
      SplitNoSep(s[1..], sep);
      assert [s[0]] + s[1..] == s;
    }
  }

  // ---------------------------------------------------------------------------
  // Decimal digits
  // ---------------------------------------------------------------------------

  predicate IsDigit(c: char) {
    '0' <= c <= '9'
  }

  predicate AllDigits(s: string) {
    forall i :: 0 <= i < |s| ==> IsDigit(s[i])
  }

  function DigitChar(d: nat): (c: char)
    requires d < 10
    ensures IsDigit(c)
  {
    "0123456789"[d]
  }

  function DigitValue(c: char): nat
    requires IsDigit(c)
  {
    (c as int) - ('0' as int)
  }

  /** The number a string of decimal digits denotes (most significant first). */
  function DigitsValue(s: string): nat
    requires AllDigits(s)
  {
    if |s| == 0 then 0 else DigitsValue(s[..|s| - 1]) * 10 + DigitValue(s[|s| - 1])
  }

  /** The shortest decimal numeral of `n`. */
  function NatString(n: nat): (r: string)
    ensures |r| >= 1 && AllDigits(r)
    ensures r[0] == '0' ==> n == 0 && |r| == 1
    ensures DigitsValue(r) == n
  {
    if n < 10 then [DigitChar(n)]
    else
      var prefix := NatString(n / 10);
      var r := prefix + [DigitChar(n % 10)];
      assert r[..|r| - 1] == prefix;
      r
  }

  /** How PHP renders an int inside a string: an optional '-' and the shortest numeral. */
  function DecimalString(n: int): (r: string)
    ensures |r| >= 1
    ensures n >= 0 ==> r == NatString(n)
    ensures n < 0 ==> r == "-" + NatString(-n)
  {
    if n < 0 then "-" + NatString(-n) else NatString(n)
  }

  // ---------------------------------------------------------------------------
  // Scanning a numeric prefix
  // ---------------------------------------------------------------------------

  /** The whitespace PHP skips before a numeric string: space, \t, \n, \r, \v, \f. */
  predicate IsSpace(c: char) {
    c == ' ' || c == '\t' || c == '\n' || c == '\r' || c as int == 11 || c as int == 12
  }

  /** `s` without its leading whitespace. */
  function TrimLeft(s: string): (r: string)
    ensures |r| <= |s|
    ensures |r| > 0 ==> !IsSpace(r[0])
  {
    if |s| > 0 && IsSpace(s[0]) then TrimLeft(s[1..]) else s
  }

  predicate AllSpace(s: string) {
    forall i :: 0 <= i < |s| ==> IsSpace(s[i])
  }

  /** What `TrimLeft` removes is whitespace, and what it keeps is the rest of `s`. */
  lemma {:induction false} TrimLeftSplit(s: string)
    ensures AllSpace(s[..|s| - |TrimLeft(s)|])
    ensures s[|s| - |TrimLeft(s)|..] == TrimLeft(s)
    decreases |s|
  {
    if |s| > 0 && IsSpace(s[0]) {
      var t := s[1..];
      TrimLeftSplit(t);
      var k := |t| - |TrimLeft(t)|;
      assert s[..k + 1] == [s[0]] + t[..k];
      assert s[k + 1..] == t[k..];
    }
  }

  /** Whitespace up to index `k` and none at `k`: trimming leaves exactly `s[k..]`. */
  lemma {:induction false} TrimLeftAt(s: string, k: nat)
    requires k <= |s| && AllSpace(s[..k])
    requires k == |s| || !IsSpace(s[k])
    ensures TrimLeft(s) == s[k..]
    decreases k
  {
    if k > 0 {
      var t := s[1..];
      assert IsSpace(s[..k][0]);
      assert t[..k - 1] == s[1..k];
      TrimLeftAt(t, k - 1);
      assert t[k - 1..] == s[k..];
    }
  }

  /** The longest prefix of `s` made of decimal digits. */
  function DigitPrefix(s: string): (r: string)
    ensures AllDigits(r) && |r| <= |s|
    ensures |r| < |s| ==> !IsDigit(s[|r|])
  {
    if |s| > 0 && IsDigit(s[0]) then [s[0]] + DigitPrefix(s[1..]) else ""
  }

  /** `t` without one leading sign character. */
  function Unsigned(t: string): string {
    if |t| > 0 && (t[0] == '-' || t[0] == '+') then t[1..] else t
  }

  lemma AllDigitsAppend(a: string, b: string)
    requires AllDigits(a) && AllDigits(b)
    ensures AllDigits(a + b)
  {
  }

  lemma DigitPrefixAll(s: string)
    requires AllDigits(s)
    ensures DigitPrefix(s) == s
  {
    if |s| > 0 {
      DigitPrefixAll(s[1..]);
      assert [s[0]] + s[1..] == s;
    }
  }
}

=== FILE: wire.dfy ===
/**
 * The command envelope and its wire form. A command is the JSON object
 * `{"id":…,"method":…,"params":[…]}` written as `json_encode` does by default
 * (strings escape `"`, `\`, `/`, control characters and every non-ASCII
 * character as `\uXXXX`, using a surrogate pair above U+FFFF), followed by
 * the CRLF that ends one request on the device's line-oriented channel.
 */
module Wire {
  import opened Wrappers
  import Text
  import Hex

  /** One command parameter: a PHP int or a PHP string. */
  datatype Param = PInt(n: int) | PStr(s: string)

  /** An outbound command: its sequence id, the method name (`name`) and the ordered parameters. */
  datatype Cmd = Cmd(id: int, name: string, params: seq<Param>)

  /**
   * ASCII from space (0x20) to DEL (0x7F) inclusive: no CR, no LF and no
   * other C0 control character, nothing non-ASCII. DEL is included because
   * `json_encode` writes it unescaped.
   */
  predicate Printable(s: string) {
    forall i :: 0 <= i < |s| ==> 0x20 <= s[i] as int < 0x80
  }

  lemma PrintableConcat(a: string, b: string)
    requires Printable(a) && Printable(b)
    ensures Printable(a + b)
  {
    assert forall i :: |a| <= i < |a + b| ==> (a + b)[i] == b[i - |a|];
  }

  // ---------------------------------------------------------------------------
  // String escaping
  // ---------------------------------------------------------------------------

  /** Four lower-case hex digits of a UTF-16 code unit. */
  function Hex4(u: nat): (r: string)
    requires u < 0x10000
    ensures |r| == 4
  {
    [Hex.HexDigit(u / 0x1000), Hex.HexDigit(u / 0x100 % 0x10), Hex.HexDigit(u / 0x10 % 0x10), Hex.HexDigit(u % 0x10)]
  }

  /** The code unit four hex digits denote, None if one of them is not a hex digit. */
  function Hex4Value(h: string): (r: Option<nat>)
    requires |h| == 4
    ensures r.Some? ==> r.value < 0x10000
  {
    match (Hex.HexValue(h[0]), Hex.HexValue(h[1]), Hex.HexValue(h[2]), Hex.HexValue(h[3]))
    case (Some(a), Some(b), Some(c), Some(d)) => Some(a * 0x1000 + b * 0x100 + c * 0x10 + d)
    case _ => None
  }

  lemma Hex4RoundTrip(u: nat)
    requires u < 0x10000
    ensures Hex4Value(Hex4(u)) == Some(u)
  {
    var a, b, c, d := u / 0x1000, u / 0x100 % 0x10, u / 0x10 % 0x10, u % 0x10;
    var h := Hex4(u);
    Hex.HexValueOfDigit(a);
    Hex.HexValueOfDigit(b);
    Hex.HexValueOfDigit(c);
    Hex.HexValueOfDigit(d);
    assert Hex4Value(h) == Some(a * 0x1000 + b * 0x100 + c * 0x10 + d);
    HexDigitsSum(u);
  }

  lemma HexDigitsSum(u: nat)
    requires u < 0x10000
    ensures u == u / 0x1000 * 0x1000 + u / 0x100 % 0x10 * 0x100 + u / 0x10 % 0x10 * 0x10 + u % 0x10
  {
    var q1, q2 := u / 0x10, u / 0x100;
    assert u == q1 * 0x10 + u % 0x10;
    assert q2 == q1 / 0x10;
    assert q1 == q2 * 0x10 + q1 % 0x10;
    assert q2 == u / 0x1000 * 0x10 + q2 % 0x10;
  }

  /** `\uXXXX` for one UTF-16 code unit. */
  function UnitEscape(u: nat): (r: string)
    requires u < 0x10000
    ensures |r| == 6 && r[0] == '\\' && r[1] == 'u' && r[2..] == Hex4(u)
  {
    "\\u" + Hex4(u)
  }

  /** The leading UTF-16 code unit of a code point above U+FFFF. */
  function HighSurrogate(code: int): (r: nat)
    requires 0x10000 <= code < 0x110000
    ensures 0xD800 <= r < 0xDC00
  {
    0xD800 + (code - 0x10000) / 0x400
  }

  /** The trailing UTF-16 code unit of a code point above U+FFFF. */
  function LowSurrogate(code: int): (r: nat)
    requires 0x10000 <= code < 0x110000
    ensures 0xDC00 <= r < 0xE000
  {
    0xDC00 + (code - 0x10000) % 0x400
  }

  /** `json_encode`'s spelling of one character inside a string literal. */
  function EscapeChar(c: char): (r: string)
    ensures |r| >= 1
    ensures r[0] == '\\' || r == [c]
  {
    var code := c as int;
    if c == '"' then "\\\""
    else if c == '\\' then "\\\\"
    else if c == '/' then "\\/"
    else if code == 8 then "\\b"
    else if code == 12 then "\\f"
    else if c == '\n' then "\\n"
    else if c == '\r' then "\\r"
    else if c == '\t' then "\\t"
    else if code < 0x20 then UnitEscape(code)
    else if code < 0x80 then [c]
    else if code < 0x10000 then UnitEscape(code)
    else UnitEscape(HighSurrogate(code)) + UnitEscape(LowSurrogate(code))
  }

  function EscapeAll(s: string): string {
    if |s| == 0 then "" else EscapeChar(s[0]) + EscapeAll(s[1..])
  }

  /** A string literal as `json_encode` writes it. */
  function EncodeString(s: string): string {
    "\"" + EscapeAll(s) + "\""
  }

  lemma UnitEscapePrintable(u: nat)
    requires u < 0x10000
    ensures Printable(UnitEscape(u))
  {
  }

  lemma EscapeCharPrintable(c: char)
    ensures Printable(EscapeChar(c))
  {
    var code := c as int;
    if code < 0x20 || code >= 0x80 {
      if code < 0x10000 {
        UnitEscapePrintable(code);
      } else {
        UnitEscapePrintable(HighSurrogate(code));
        UnitEscapePrintable(LowSurrogate(code));
        PrintableConcat(UnitEscape(HighSurrogate(code)), UnitEscape(LowSurrogate(code)));
      }
    }
  }

  /** Escaped text is printable ASCII whatever the input: no CR or LF survives escaping. */
  lemma {:induction false} EscapeAllPrintable(s: string)
    ensures Printable(EscapeAll(s))
  {
    if |s| > 0 {
      EscapeCharPrintable(s[0]);
      EscapeAllPrintable(s[1..]);
      PrintableConcat(EscapeChar(s[0]), EscapeAll(s[1..]));
    }
  }

  lemma EncodeStringPrintable(s: string)
    ensures Printable(EncodeString(s))
  {
    EscapeAllPrintable(s);
    PrintableConcat("\"", EscapeAll(s));
    PrintableConcat("\"" + EscapeAll(s), "\"");
  }

  // ---------------------------------------------------------------------------
  // Reading a string literal back
  // ---------------------------------------------------------------------------

  function Prepend(c: char, o: Option<string>): Option<string> {
    match o
    case None => None
    case Some(t) => Some([c] + t)
  }

  /** The simple escapes `\"`, `\\`, `\/`, `\b`, `\f`, `\n`, `\r`, `\t`. */
  function ShortEscape(e: char): Option<char> {
    if e == '"' then Some('"')
    else if e == '\\' then Some('\\')
    else if e == '/' then Some('/')
    else if e == 'b' then Some(8 as char)
    else if e == 'f' then Some(12 as char)
    else if e == 'n' then Some('\n')
    else if e == 'r' then Some('\r')
    else if e == 't' then Some('\t')
    else None
  }

  /**
   * The characters a string literal's body denotes, or None when the body
   * holds a bare quote, a broken escape or an unpaired surrogate.
   */
  function Unescape(t: string): Option<string>
    decreases |t|
  {
    if |t| == 0 then Some("")
    else if t[0] == '"' then None
    else if t[0] != '\\' then Prepend(t[0], Unescape(t[1..]))
    else if |t| < 2 then None
    else if t[1] != 'u' then
      match ShortEscape(t[1])
      case None => None
      case Some(c) => Prepend(c, Unescape(t[2..]))
    else if |t| < 6 then None
    else
      match Hex4Value(t[2..6])
      case None => None
      case Some(u) =>
        if 0xD800 <= u < 0xDC00 then
          if |t| < 12 || t[6] != '\\' || t[7] != 'u' then None
          else
            match Hex4Value(t[8..12])
            case None => None
            case Some(w) =>
              if 0xDC00 <= w < 0xE000 then
                Prepend((0x10000 + (u - 0xD800) * 0x400 + (w - 0xDC00)) as char, Unescape(t[12..]))
              else None
        else if 0xDC00 <= u < 0xE000 then None
        else Prepend(u as char, Unescape(t[6..]))
  }

  /** Unescaping one escaped character yields that character in front of what follows. */
  lemma UnescapeChar(c: char, rest: string)
    ensures Unescape(EscapeChar(c) + rest) == Prepend(c, Unescape(rest))
  {
    var code := c as int;
    if code >= 0x10000 {
      UnescapeAstral(c, rest);
    } else if code >= 0x80 || (code < 0x20 && !(code == 8 || code == 12 || c == '\n' || c == '\r' || c == '\t')) {
      UnescapeUnit(c, rest);
    } else {
      var t := EscapeChar(c) + rest;
      if |EscapeChar(c)| == 2 {
        assert t[2..] == rest;
      } else {
        assert t[1..] == rest;
      }
    }
  }

  /** A character written as one `\uXXXX` escape. */
  lemma UnescapeUnit(c: char, rest: string)
    requires c as int >= 0x80 || (c as int < 0x20 && !(c as int == 8 || c as int == 12 || c == '\n' || c == '\r' || c == '\t'))
    requires c as int < 0x10000
    ensures Unescape(EscapeChar(c) + rest) == Prepend(c, Unescape(rest))
  {
    var code := c as int;
    var t := EscapeChar(c) + rest;
    assert EscapeChar(c) == UnitEscape(code);
    Hex4RoundTrip(code);
    assert t[2..6] == Hex4(code);
    assert t[6..] == rest;
  }

  /** A character above U+FFFF, written as a surrogate pair of `\uXXXX` escapes. */
  lemma UnescapeAstral(c: char, rest: string)
    requires c as int >= 0x10000
    ensures Unescape(EscapeChar(c) + rest) == Prepend(c, Unescape(rest))
  {
    var code := c as int;
    EscapeAstral(c);
    SurrogatesJoin(code);
    UnescapeUnits(HighSurrogate(code), LowSurrogate(code), rest);
  }

  lemma EscapeAstral(c: char)
    requires c as int >= 0x10000
    ensures EscapeChar(c) == UnitEscape(HighSurrogate(c as int)) + UnitEscape(LowSurrogate(c as int))
  {
  }

  /** Two escaped code units forming a surrogate pair decode to one character. */
  lemma UnescapeUnits(hi: nat, lo: nat, rest: string)
    requires 0xD800 <= hi < 0xDC00 && 0xDC00 <= lo < 0xE000
    ensures Unescape(UnitEscape(hi) + UnitEscape(lo) + rest)
         == Prepend((0x10000 + (hi - 0xD800) * 0x400 + (lo - 0xDC00)) as char, Unescape(rest))
  {
    var t := UnitEscape(hi) + UnitEscape(lo) + rest;
    Hex4RoundTrip(hi);
    Hex4RoundTrip(lo);
    assert t[2..6] == Hex4(hi);
    assert t[8..12] == Hex4(lo);
    assert t[12..] == rest;
    UnescapePair(t, hi, lo);
  }

  /** Decoding a surrogate pair recovers the code point. */
  lemma SurrogatesJoin(code: int)
    requires 0x10000 <= code < 0x110000
    ensures 0x10000 + (HighSurrogate(code) - 0xD800) * 0x400 + (LowSurrogate(code) - 0xDC00) == code
  {
    var v := code - 0x10000;
    assert v == v / 0x400 * 0x400 + v % 0x400;
  }

  /** How `Unescape` reads a well-formed surrogate pair at the head of `t`. */
  lemma UnescapePair(t: string, hi: nat, lo: nat)
    requires |t| >= 12 && t[0] == '\\' && t[1] == 'u' && t[6] == '\\' && t[7] == 'u'
    requires Hex4Value(t[2..6]) == Some(hi) && 0xD800 <= hi < 0xDC00
    requires Hex4Value(t[8..12]) == Some(lo) && 0xDC00 <= lo < 0xE000
    ensures Unescape(t) == Prepend((0x10000 + (hi - 0xD800) * 0x400 + (lo - 0xDC00)) as char, Unescape(t[12..]))
  {
  }

  /** Escaping then unescaping gives back every string. */
  lemma {:induction false} EscapeRoundTrip(s: string)
    ensures Unescape(EscapeAll(s)) == Some(s)
  {
    if |s| > 0 {
      UnescapeChar(s[0], EscapeAll(s[1..]));
      EscapeRoundTrip(s[1..]);
      assert [s[0]] + s[1..] == s;
    }
  }

  /** Printable text other than `"`, `\` and `/` needs no escaping. */
  predicate Plain(s: string) {
    forall i :: 0 <= i < |s| ==> 0x20 <= s[i] as int < 0x80 && s[i] != '"' && s[i] != '\\' && s[i] != '/'
  }

  lemma {:induction false} EscapePlain(s: string)
    requires Plain(s)
    ensures EscapeAll(s) == s
  {
    if |s| > 0 {
      assert Plain(s[1..]);
      EscapePlain(s[1..]);
      assert [s[0]] + s[1..] == s;
    }
  }

  // ---------------------------------------------------------------------------
  // The envelope
  // ---------------------------------------------------------------------------

  function EncodeParam(p: Param): string {
    match p
    case PInt(n) => Text.DecimalString(n)
    case PStr(s) => EncodeString(s)
  }

  /** The elements of a JSON array, comma separated. */
  function EncodeElements(ps: seq<Param>): string {
    if |ps| == 0 then ""
    else if |ps| == 1 then EncodeParam(ps[0])
    else EncodeParam(ps[0]) + "," + EncodeElements(ps[1..])
  }

  /** The JSON object `{"id":…,"method":…,"params":[…]}`, keys in that order. */
  function EncodeCmd(cmd: Cmd): string {
    "{\"id\":" + Text.DecimalString(cmd.id)
    + ",\"method\":" + EncodeString(cmd.name)
    + ",\"params\":[" + EncodeElements(cmd.params) + "]}"
  }

  lemma DecimalPrintable(n: int)
    ensures Printable(Text.DecimalString(n))
  {
    var d := Text.DecimalString(n);
    assert Text.AllDigits(if n < 0 then d[1..] else d);
  }

  lemma EncodeParamPrintable(p: Param)
    ensures Printable(EncodeParam(p))
  {
    match p
    case PInt(n) => DecimalPrintable(n);
    case PStr(s) => EncodeStringPrintable(s);
  }

  lemma {:induction false} EncodeElementsPrintable(ps: seq<Param>)
    ensures Printable(EncodeElements(ps))
  {
    if |ps| == 1 {
      EncodeParamPrintable(ps[0]);
    } else if |ps| > 1 {
      EncodeParamPrintable(ps[0]);
      EncodeElementsPrintable(ps[1..]);
      PrintableConcat(EncodeParam(ps[0]), ",");
      PrintableConcat(EncodeParam(ps[0]) + ",", EncodeElements(ps[1..]));
    }
  }

  /** Every encoded command is printable ASCII: `json_encode` never emits a raw line break. */
  lemma EncodeCmdPrintable(cmd: Cmd)
    ensures Printable(EncodeCmd(cmd))
  {
    var h := "{\"id\":" + Text.DecimalString(cmd.id) + ",\"method\":" + EncodeString(cmd.name);
    var e := EncodeElements(cmd.params);
    HeadPrintable(cmd.id, cmd.name);
    EncodeElementsPrintable(cmd.params);
    var open := ",\"params\":[";
    var close := "]}";
    PrintableConcat(h, open);
    PrintableConcat(h + open, e);
    PrintableConcat(h + open + e, close);
    assert EncodeCmd(cmd) == h + open + e + close;
  }

  /** The part of the object before the parameters is printable. */
  lemma HeadPrintable(id: int, name: string)
    ensures Printable("{\"id\":" + Text.DecimalString(id) + ",\"method\":" + EncodeString(name))
  {
    var a := "{\"id\":" + Text.DecimalString(id);
    DecimalPrintable(id);
    PrintableConcat("{\"id\":", Text.DecimalString(id));
    EncodeStringPrintable(name);
    PrintableConcat(a, ",\"method\":");
    PrintableConcat(a + ",\"method\":", EncodeString(name));
  }

  /**
   * The bytes written to the socket for one command: the object and CRLF.
   * The object itself contains no CR or LF, so the device sees exactly one
   * request per line.
   */
  function Frame(cmd: Cmd): (r: string)
    ensures |r| >= 2 && r[|r| - 2..] == "\r\n"
    ensures forall i :: 0 <= i < |r| - 2 ==> r[i] != '\r' && r[i] != '\n'
    ensures r[..|r| - 2] == EncodeCmd(cmd)
  {
    var body := EncodeCmd(cmd);
    EncodeCmdPrintable(cmd);
    body + "\r\n"
  }

  lemma FiftyAndFiveHundred()
    ensures Text.DecimalString(50) == "50"
    ensures Text.DecimalString(500) == "500"
  {
    assert Text.NatString(5) == "5";
    assert Text.NatString(50) == Text.NatString(5) + "0";
    assert Text.NatString(500) == Text.NatString(50) + "0";
  }

  /** Plain text is written between quotes as it stands. */
  lemma PlainLiteral(s: string) returns (r: string)
    requires Plain(s)
    ensures r == EncodeString(s) && r == "\"" + s + "\""
  {
    EscapePlain(s);
    r := EncodeString(s);
  }

  /** `set_bright` with 50, `smooth`, 500, framed for any id. */
  lemma SetBrightFrame(id: int)
    ensures Frame(Cmd(id, "set_bright", [PInt(50), PStr("smooth"), PInt(500)]))
         == "{\"id\":" + Text.DecimalString(id) + ",\"method\":" + "\"set_bright\""
            + ",\"params\":[" + ("50" + "," + "\"smooth\"" + "," + "500") + "]}" + "\r\n"
  {
    var cmd := Cmd(id, "set_bright", [PInt(50), PStr("smooth"), PInt(500)]);
    var elements := SetBrightElements();
    SetBrightPlain();
    var m := PlainLiteral("set_bright");
    QuotedSetBright();
    var body := EncodeCmd(cmd);
    assert body == "{\"id\":" + Text.DecimalString(id) + ",\"method\":" + m + ",\"params\":[" + elements + "]}";
    assert Frame(cmd) == body + "\r\n";
  }

  lemma QuotedSetBright()
    ensures "\"" + "set_bright" + "\"" == "\"set_bright\""
  {
  }

  lemma SetBrightPlain()
    ensures Plain("set_bright")
  {
  }

  lemma SetBrightElements() returns (r: string)
    ensures r == EncodeElements([PInt(50), PStr("smooth"), PInt(500)])
    ensures r == "50" + "," + "\"smooth\"" + "," + "500"
  {
    var ps := [PInt(50), PStr("smooth"), PInt(500)];
    FiftyAndFiveHundred();
    var smooth := QuotedSmooth();
    assert ps[1..] == [PStr("smooth"), PInt(500)];
    assert ps[1..][1..] == [PInt(500)];
    assert EncodeElements(ps[1..][1..]) == "500";
    var tail := EncodeElements(ps[1..]);
    assert tail == smooth + "," + "500";
    r := EncodeElements(ps);
    assert r == "50" + "," + tail;
  }

  lemma QuotedSmooth() returns (r: string)
    ensures r == EncodeString("smooth") && r == "\"smooth\""
  {
    r := PlainLiteral("smooth");
  }
}

=== FILE: wrappers.dfy ===
/** Option and Result: the model's stand-ins for PHP's `null` and for thrown exceptions. */
module Wrappers {

  /** A value that may be absent (PHP `null`). */
  datatype Option<+T> = None | Some(value: T)

  /** The outcome of an operation that can throw: a value or an error. */
  datatype Result<+R, +E> = Success(value: R) | Failure(error: E)
}
